=== FILE: README.md ===
# DraftBot core logic in Dafny

This project models five pieces of sequential logic from the DraftBot game bot.
Each becomes a pure computation once the Discord, database, clock and randomness
calls are replaced by parameters.

- **Pet shelter transfer** (`PetTransfer`, `/petTransfer`). A player has one pet slot and a guild has a shelter list.
  - A deposit moves the player's pet into the shelter.
  - A switch exchanges the player's pet with the shelter pet at a 1-based position.
  - A switch with an empty pet slot takes that shelter pet out instead.
  - Replies are errors checked in a fixed order, or a transfer log record.
- **Travel bookkeeping** (`Maps`).
  - The travelling flag and the travelled time.
  - Advancing the clock by some minutes.
  - Starting and stopping a travel.
  - Choosing the next maps, including the fallback to the previous map.
  - The progress bar drawn between two map emotes.
- **Equipment** (`Equipment`). Weapon and armor lookups by id, the efficiency table lookup, and the rarity threshold walk.
- **Inventory message** (`InventoryEmbed`).
  - The main page shows the equipped item of each category.
  - The stock page lists the reserve slots.
  - A reaction flips between the two pages.
  - The builder splits the inventory by category.
- **Log records** (`LogsDatabase`). The logs database is an append-only sequence of records, and a record's id is its position.
  - PvP and PvE fight results, with the action-usage tally, the player order and the winner codes.
  - Time warps, alterations, guild shop food purchases, pet entities and pet transfers.

Shared modelling choices:

- JavaScript `null` and `undefined` become `Option`. Where the source would throw on a missing table entry, the model returns `None`.
- Dates are integers in milliseconds; the current time is a parameter.
- Floating-point arithmetic in the progress bar is modelled as exact `real` arithmetic.
- The shelter capacity (`PetEntityConstants.SLOTS`) is a parameter.
- The number of small events (`REPORT.SMALL_EVENTS_COUNT`) is a parameter.
- The rarity thresholds (`DefaultValues.raritiesGenerator`) are a parameter.
- The item tables (`ItemValues`) are a parameter.

## Model

| member | source | states |
|---|---|---|
| PetTransfer.Deposit | src/commands/pets/PetTransferCommand.ts:42-74 | A deposit is rejected for a missing pet, then for a feisty pet, then for a full shelter (count at least the capacity), and a rejection leaves both holdings as they were. It succeeds exactly when a non-feisty pet exists and the shelter has room. It then empties the player's slot and appends the pet, so the shelter grows by one, stays within capacity and keeps every earlier pet. All pets are conserved, and the logged transfer names the pet sent to the guild. |
| PetTransfer.Switch | src/commands/pets/PetTransferCommand.ts:102-125 | The shelter position is checked as in the caller: an empty shelter and a position past its end are rejected, with the single- or many-pets message. A feisty player pet then blocks the switch. Every rejection changes nothing. On success the player holds the former shelter pet at the position. With a pet of their own, that pet takes the shelter slot and the length is kept; without one, the shelter pet is removed and the others close up. Pets are conserved and the log names both pets. |
| PetTransfer.Exchange | src/commands/pets/PetTransferCommand.ts:111-124 | Swapping with a non-feisty player pet puts that pet at the chosen index, leaves every other shelter entry alone, hands the former shelter pet to the player and conserves the pets. |
| PetTransfer.TakeOut | src/commands/pets/PetTransferCommand.ts:119-124 | With no player pet, the chosen shelter pet goes to the player and the shelter loses exactly that entry, the later ones moving down by one. |
| PetTransfer.ExecuteCommand | src/commands/pets/PetTransferCommand.ts:182-226 | A blocked player is turned away first, then a player outside any guild, before any transfer logic. Otherwise the reply is exactly the deposit when there is no position option, and exactly the switch at the given position when there is one. A rejection leaves the state unchanged, and a success conserves the pets. The shelter capacity bound is preserved. A successful switch used a position within the shelter and gives the player the pet that stood there. |
| PetTransfer.DepositThenWithdraw | src/commands/pets/PetTransferCommand.ts:58-64 | In the model's insertion-ordered shelter, taking out, from an empty pet slot, the pet just deposited (it stands at the last position) restores the holdings exactly. |
| PetTransfer.SwitchTwiceRestores | src/commands/pets/PetTransferCommand.ts:116-122 | Two switches at the same position with non-feisty pets restore the holdings, and the second transfer record is the mirror of the first. |
| PetTransfer.CommandsConserve | src/commands/pets/PetTransferCommand.ts:182-226 | Over any sequence of commands the pets held by player and guild together are conserved, and a shelter within capacity stays within capacity. |
| Maps.TravellingTime | src/core/Maps.js:37-52 | A player is travelling exactly when the travel start is not 0. One who is not travelling has travelled for 0 ms. Otherwise the time is now minus the start once the effect is over. While an effect runs it is the effect's end minus the start. |
| Maps.StoppedTravelTakesNoTime | src/core/Maps.js:46-49 | After stopping, the travelled time is 0 whatever the clock says. |
| Maps.TravelClockStopsDuringEffect | src/core/Maps.js:50-51 | While an effect runs, the travelled time does not depend on the current time. |
| Maps.AdvanceTime | src/core/Maps.js:80-91 | The start moves back by exactly the minutes in milliseconds. With no remaining effect time the effect end is unchanged. With an active effect the end becomes the later of now and the old end minus the advance, so it is never before now. For a forward advance of an effect not yet over, it is never after the old end. No other field changes. |
| Maps.AdvanceTimeAdds | src/core/Maps.js:80-91 | Two forward advances of a and b minutes equal one advance of a + b, provided the second sees the effect still running unless the first ended it. |
| Maps.StartTravel | src/core/Maps.js:100-108 | The current map becomes the previous map and the target becomes the current map. The start is the given time plus the effect duration in milliseconds. The effect is applied again exactly when it is not the smiley. The effect fields are untouched. |
| Maps.StartTravelTravels | src/core/Maps.js:100-103 | A travel started at a positive time with a non-negative effect duration is under way. Once the effect is over, its travelled time is now minus the start time minus the effect duration. While the effect runs, it is the effect's end minus those. |
| Maps.StopTravel | src/core/Maps.js:115-118 | Afterwards the player is not travelling, and the map and effect fields are unchanged. |
| Maps.NextPlayerAvailableMaps | src/core/Maps.js:9-30 | A player without a map is first placed on the drawn map, as both current and previous map. The answer is the connected maps when there are any. With none and a previous map set, it is exactly that previous map. With none and no previous map, it is empty. |
| Maps.NeverStranded | src/core/Maps.js:26-28 | A placed player with a previous map always gets at least one destination. |
| Maps.Percentage | src/core/Maps.js:136-140 | Progress is the travelled time as a share of two hours, clamped to at most 1 (exactly 1 from two hours on), and is non-negative exactly for non-negative times. |
| Maps.Span | src/core/Maps.js:142 | Each of the small-events-plus-one segments covers a positive share of the bar, and together they cover all of it. |
| Maps.FirstSegment | src/core/Maps.js:143-148 | The segment chosen is the first whose end the progress does not pass; every earlier segment is passed. |
| Maps.SegmentExists | src/core/Maps.js:143-148 | For progress at most 1 the segment loop always breaks, so some segment is chosen. |
| Maps.PositionInSegment | src/core/Maps.js:141-149 | Within the chosen segment i the progress, counted in segments, lies in (i, i+1], or is at most 1 for the first segment, and it is non-negative for a non-negative fraction. The walker's exact position is 5i plus four times the progress past i. |
| Maps.WalkerOnBar | src/core/Maps.js:141-149 | For a non-negative travelled time the rounded-down walker index lies between the first cell and the last gap of the bar. |
| Maps.WalkerStartsOnFirstCell | src/core/Maps.js:141-149 | At time 0 the walker stands on the first cell. |
| Maps.WalkerHiddenOnArrival | src/core/Maps.js:137-166 | From two hours on the walker index is the final gap position, so every drawn cell is a square and no marker shows. |
| Maps.WalkerMonotone | src/core/Maps.js:136-149 | The walker never moves back as the travelled time grows. |
| Maps.PercentageMonotone | src/core/Maps.js:136-140 | Progress grows with the travelled time. |
| Maps.PositionMonotone | src/core/Maps.js:141-148 | The walker's exact bar position grows with progress, across segment changes too. |
| Maps.CellPositionInjective | src/core/Maps.js:151-153 | Distinct cells sit at distinct bar positions (cell j of segment i is at 5i + j). |
| Maps.PathCells | src/core/Maps.js:151-165 | The bar has exactly (small events + 1) × 4 cells. |
| Maps.AtMostOneMarker | src/core/Maps.js:151-165 | At most one cell shows the marker. |
| Maps.DrawCells | src/core/Maps.js:151-165 | The nested segment and cell loops draw exactly the bar's cells, left to right: the marker at the cell whose position is the walker index, a square everywhere else. |
| Maps.GenerateTravelPathString | src/core/Maps.js:133-167 | The string is the previous map's emote, a space, the cells left to right, a space and the next map's emote. The walker marker, or the effect's marker at the effect's end time, stands at the rounded-down position of the progress. |
| Equipment.GetWeaponById | modules/classes/EquipementManager.js:15-17 | A weapon exists exactly for ids in the weapon table. It carries the id and the table's rareness and power. |
| Equipment.GetArmorById | modules/classes/EquipementManager.js:25-27 | An armor exists exactly for ids in the armor table. It carries the id and the table's rareness and power. |
| Equipment.GetEquipmentEfficiency | modules/classes/EquipementManager.js:66-68 | The efficiency is defined exactly when the effect table has the equipment's rareness and power. It is the entry at that rareness and power. |
| Equipment.WeaponEfficiencyFromTable | modules/classes/EquipementManager.js:66-68 | A looked-up weapon's efficiency is the effect table entry at the rareness and power the weapon table gives its id. |
| Equipment.GenerateRandomRareness | modules/classes/EquipementManager.js:126-133 | The result is at least 1 and at most one past the last threshold. It is the smallest rareness whose threshold the draw does not exceed; when no such threshold exists, it is the first rareness with no threshold. |
| Equipment.RarenessUnique | modules/classes/EquipementManager.js:128-131 | That characterisation determines a single rareness. |
| Equipment.RarenessMonotone | modules/classes/EquipementManager.js:129-131 | A larger draw never yields a smaller rareness. |
| Equipment.RarenessAtMost | modules/classes/EquipementManager.js:129-131 | A draw within the threshold of rareness k yields a rareness in 1..k. So with the seventh threshold at least the maximum draw, every draw yields 1..7. |
| InventoryEmbed.FirstInSlot | src/core/messages/DraftBotInventoryEmbed.ts:80-85 | A slot's search finds nothing exactly when no item has that slot. Otherwise it finds the first item with that slot. |
| InventoryEmbed.StockLinesShowSlots | src/core/messages/DraftBotInventoryEmbed.ts:79-86 | Line k of the stock list shows reserve slot k + 1: the text of the first item in that slot, or the empty-slot text exactly when no item is in that slot. |
| InventoryEmbed.StockText | src/core/messages/DraftBotInventoryEmbed.ts:78-88 | The stock loop over slots 1 to slots − 1 builds the slot lines, each followed by a newline. |
| InventoryEmbed.CreateStockField | src/core/messages/DraftBotInventoryEmbed.ts:66-94 | The name fills the title with the number of reserve items (all items but one) and of reserve slots. With at most one slot the value is the no-slot text. Otherwise it is each reserve slot's line followed by a newline: the first matching item's text, or the empty-slot text. The field is not inline. |
| InventoryEmbed.SplitJoin | src/core/messages/DraftBotInventoryEmbed.ts:78-88 | When no line contains a newline, splitting the stock text at newlines gives back exactly the slot lines. |
| InventoryEmbed.ReactionCallback | src/core/messages/DraftBotInventoryEmbed.ts:96-110 | The reaction flips the state and shows the page of the new state, leaving both pages as they were. |
| InventoryEmbed.ReactionTwiceRestores | src/core/messages/DraftBotInventoryEmbed.ts:96-110 | Reacting twice restores the displayed message. |
| InventoryEmbed.MainFields | src/core/messages/DraftBotInventoryEmbed.ts:46-51 | The main page shows the slot-0 items of weapons, armors, potions and objects, in that order. It exists exactly when each category has a slot-0 item. |
| InventoryEmbed.NewInventoryMessage | src/core/messages/DraftBotInventoryEmbed.ts:29-64 | A new message starts in the main state and shows the main page. The stock page holds the four categories' stock fields in order, with the stock title and footer. |
| InventoryEmbed.ItemsOf | src/core/messages/DraftBotInventoryEmbed.ts:127-130 | A category's list is no longer than the inventory. |
| InventoryEmbed.ItemsOfSingle | src/core/messages/DraftBotInventoryEmbed.ts:127-130 | A single row contributes its slot and field to its own category's list and nothing to any other. |
| InventoryEmbed.ItemsOfAppend | src/core/messages/DraftBotInventoryEmbed.ts:127-130 | The list of a category for two inventories in a row is the first one's list followed by the second one's, so items keep the inventory's order and multiplicity. |
| InventoryEmbed.Build | src/core/messages/DraftBotInventoryEmbed.ts:126-157 | The four category lists together are exactly as long as the inventory. |
| InventoryEmbed.BuildSingle | src/core/messages/DraftBotInventoryEmbed.ts:126-157 | Building a one-row inventory puts that row's item in its own category's list and leaves the other three empty. |
| InventoryEmbed.BuildAppend | src/core/messages/DraftBotInventoryEmbed.ts:126-157 | Building two inventories in a row gives, per category, the first build's list followed by the second's. |
| InventoryEmbed.PartitionSizes | src/core/messages/DraftBotInventoryEmbed.ts:127-130 | Every inventory row lands in exactly one category list: the sizes add up. |
| InventoryEmbed.ItemsOfSound | src/core/messages/DraftBotInventoryEmbed.ts:127-130 | A category list holds only rows of that category, each with its own slot and field. |
| InventoryEmbed.ItemsOfComplete | src/core/messages/DraftBotInventoryEmbed.ts:127-130 | Every row appears in the list of its own category. |
| LogsDatabase.Increment | src/core/database/logs/LogsDatabase.ts:1017 | Counting one use raises that name's count by one or adds it with count 1. No other count changes, names stay distinct and the total grows by one. |
| LogsDatabase.Tally | src/core/database/logs/LogsDatabase.ts:1015-1018 | The tally has one entry per distinct action name in the history and no other entries. Each count is that name's number of occurrences, and the counts sum to the history's length. Entries come in the order of their names' first occurrences. |
| LogsDatabase.IncrementKeepsOrder | src/core/database/logs/LogsDatabase.ts:1015-1018 | Counting one more action keeps the entries in order of first use in the longer history. |
| LogsDatabase.TallyCountsEveryName | src/core/database/logs/LogsDatabase.ts:1015-1018 | Every action that occurs has an entry holding its number of occurrences. |
| LogsDatabase.UsageRowsCountActions | src/core/database/logs/LogsDatabase.ts:1014-1032 | A PvP fighter's usage rows hold a row for an action with a given count exactly when the action occurs in the fighter's history that many times. |
| LogsDatabase.PveUsageRowsCountActions | src/core/database/logs/LogsDatabase.ts:1072-1088 | The PvE usage rows hold a row for an action with a given count exactly when the action occurs in the player's history that many times. |
| LogsDatabase.Player1Index | src/core/database/logs/LogsDatabase.ts:999 | Player 1 is fighter 0 exactly when the turn count is odd. |
| LogsDatabase.OtherIndex | src/core/database/logs/LogsDatabase.ts:1001 | Player 2 is the other fighter. |
| LogsDatabase.PlayersAreTheFighters | src/core/database/logs/LogsDatabase.ts:999-1001 | Player 1 and player 2 are exactly the two fighters, each once. |
| LogsDatabase.PvpWinnerCode | src/core/database/logs/LogsDatabase.ts:1003-1010 | The code is at most 2. It is 0 exactly for a draw, and 1 exactly when there is no draw and player 1 won. |
| LogsDatabase.LogFight | src/core/database/logs/LogsDatabase.ts:997-1037 | Unless both fighters are players, nothing is written and there is no id. Otherwise the log is only appended to, and the id is the result row's position. The result row carries player 1 and player 2 with their scores, the turn, the winner code and the friendly flag. The rows after it are player 1's usage rows, then player 2's. |
| LogsDatabase.PveSides | src/core/database/logs/LogsDatabase.ts:1047-1054 | The player and the monster are identified in either order. Nothing is identified unless exactly one fighter is a player and the other a monster. |
| LogsDatabase.PveWinnerCode | src/core/database/logs/LogsDatabase.ts:1069 | The code is at most 2. It is 0 exactly when nobody won and 1 exactly when the player won. |
| LogsDatabase.LogPveFight | src/core/database/logs/LogsDatabase.ts:1043-1090 | Without a player and a monster the log is unchanged. Otherwise the log is only appended to. The result row carries the player, the monster's id, level and base stats, the turn and the winner code, followed by the player's usage rows. |
| LogsDatabase.LogTimeWarp | src/core/database/logs/LogsDatabase.ts:706-717 | The log is unchanged exactly when the reason is IGNORE. Otherwise one time-warp record is appended. |
| LogsDatabase.LogAlteration | src/core/database/logs/LogsDatabase.ts:470-493 | Exactly one record is appended. It goes to the occupied table, with the duration, exactly for the occupied alteration; any other alteration gets a standard record naming it. |
| LogsDatabase.LogFoodGuildShopBuyout | src/core/database/logs/LogsDatabase.ts:819-828 | One purchase record is appended, carrying the player, the item code (the food index + 6), the amount and the date. |
| LogsDatabase.SecondsOf | src/core/database/logs/LogsDatabase.ts:194 | The creation timestamp is the number of whole seconds: s × 1000 ≤ ms < s × 1000 + 1000. |
| LogsDatabase.FindOrCreatePetEntity | src/core/database/logs/LogsDatabase.ts:190-197 | The returned id points at the pet's entity (game id and creation second). An existing entity leaves the log unchanged; a missing one is appended. |
| LogsDatabase.FindOrCreateIdempotent | src/core/database/logs/LogsDatabase.ts:190-197 | Finding or creating the same pet a second time changes nothing and yields the same id. |
| LogsDatabase.LogPetTransfer | src/core/database/logs/LogsDatabase.ts:893-901 | The log is only appended to, by at most three records, the last a transfer record. Every record before it is the entity of the guild pet or of the player pet, created only when no equal record is already in the log. Each of the transfer's two pet ids is present exactly when that pet is given. When present, an id points at that pet's entity. |
| LogsDatabase.LogPetTransferNoPets | src/core/database/logs/LogsDatabase.ts:893-901 | A transfer naming neither pet appends the transfer record alone, with no pet ids. |

## Left out

- The fight engine (FightController, PlayerFighter, MonsterFighter) is not part of this model. A finished fight is given as its two fighters, the turn count, the winner's index and the draw and friendly flags.
- The Sequelize calls are not modelled.
  - Record ids are positions in the log.
  - Players are named by their Discord id instead of a player-table row (`findOrCreatePlayer`).
  - Actions are named by name and class instead of an action-table row.
  - Alterations are named by their text instead of an alteration-table row.
- Discord interactions, replies, embeds, translations and the template filler (`format`) are left out. Texts are opaque strings, and `format` is a function parameter.
- The pet transfer's confirmation texts and mission updates (`setDescriptionPetTransferEmbed`, `updateMissionsOfEntity`) are left out. They are message text and calls into code not shown.
- The position option's maximum (`setMaxValue(SLOTS)`) is not a precondition. The switch already rejects every position past the shelter's count.
- `Math.random`, `Date.now()` and `getDateLogs()` are inputs.
  - The rarity draw is passed in already rounded.
  - The random map of a player without a map is passed in.
- Maps.TravellingTime, Maps.TravelClockStopsDuringEffect, Maps.AdvanceTime: `getTravellingTime` (Maps.js:50-51) and `advanceTime` (Maps.js:83-84) each read `Date.now()` twice, and the model takes both reads as the same instant `now`. While an effect runs, the source's travelled time is the effect's end minus the start plus the milliseconds between the two reads, and `advanceTime` compares the end with one reading and may set it to a later one. These members hold up to those milliseconds.
- `effectRemainingTime()` and `currentEffectFinished()` are inputs, because their code is not shown.
- `minutesToMilliseconds` is assumed to multiply by 60000. Minutes are integers, so the fractional minutes `millisecondsToMinutes` can produce are not modelled.
- `applyEffect` and `removeEffect` (Maps.js:55-78) are left out: they depend on `JsonReader`, `effectRemainingTime` and the time helpers, none of them shown. `Maps.StartTravel` reports whether `applyEffect` would follow instead of performing it.
- The database query `MapLocations.getMapConnected`, which leaves out the previous map, is a function parameter. The map emotes are string parameters.
- Maps.GenerateTravelPathString, Maps.SegmentExists, Maps.WalkerHiddenOnArrival: progress and bar position are exact reals, while the source uses doubles. In doubles, n × (1 / n) falls below 1 for some segment counts n = small events + 1 (49, 98, 103, 107, 161, 187, 196 and 197 below 200). For those, at progress 1 the loop at Maps.js:143-148 never breaks, the index stays 0 and the walker is drawn on the first cell. So SegmentExists and WalkerHiddenOnArrival hold only in exact arithmetic. For other fractions landing exactly on a segment end, the source's index can also differ by one position.
- Maps.AdvanceTime: "never after the old end" is stated only for a non-negative advance of an effect that has not already ended. In the other cases the source itself moves the end later. Line 84 stores a number where the rest of the code expects a `Date`; the model stores the number.
- Equipment.GenerateRandomRareness: the source stops at the first missing threshold, because `draw > undefined` is false. The model therefore allows results up to one past the last threshold. The seven-rarities bound is a lemma with its premise.
- `generateRandomWeapon`, `generateRandomArmor` and the id generators (EquipementManager.js:75-119) are left out, for three reasons.
  - They rely on float rounding and rejection loops that need not terminate.
  - Line 79 reads an undefined `desiredRareness`.
  - Line 104 checks the weapon table when drawing an armor.
- `displayWeapon`, `displayArmor` and `displayDefaultArmor` are left out: they are text built from name and rarity tables that are not shown.
- InventoryEmbed.NewInventoryMessage: when a category has no slot-0 item, the source throws a TypeError while reading it. The model returns no message.
- The category constants `Constants.ITEM_CATEGORIES` are not shown, so the four categories are a datatype.
- LogsDatabase.Tally: the source counts into a plain JavaScript object. Its prototype keys (such as `__proto__`) and integer-like action names would misbehave or reorder entries there. The model treats every name as an ordinary key, in order of first use.
- PetTransfer.Deposit / PetTransfer.DepositThenWithdraw: the shelter is modelled in insertion order (a deposit goes last, a removal closes the gap). The order `GuildPets.getOfGuild` returns is not shown, so the round trip rests on that assumption.
- The food index lookup `getFoodIndexOf` is not shown; the index is an input.
- `log15BestTopWeek` and `log15BestSeason` are left out. They write the first player's id on every row, so they are not a behaviour to model as intended.

=== FILE: equipment.dfy ===
/**
 * Equipment lookups and rarity drawing (`EquipementManager`). The item tables
 * (`ItemValues`) and the rarity thresholds are parameters; the random draw is
 * passed in already rounded to an integer.
 */
module Equipment {
  import opened Wrappers

  /** A piece of equipment: its id, rareness (1 common to 7 legendary) and power level. */
  datatype Equipment = Equipment(id: nat, rareness: int, power: int)

  /** A table entry: the rareness and power of the item with that id. */
  datatype ItemValue = ItemValue(rareness: int, power: int)

  /**
   * The item value tables: weapons and armors by id, and the efficiency of an
   * item by rareness then power.
   */
  datatype ItemValues = ItemValues(
    weapon: map<nat, ItemValue>,
    armor: map<nat, ItemValue>,
    effect: map<int, map<int, int>>)

  /** The equipment a table describes under `id`; None where the source reads a missing entry and throws. */
  function FromTable(table: map<nat, ItemValue>, id: nat): (r: Option<Equipment>)
    ensures r.Some? <==> id in table
    ensures r.Some? ==> r.value.id == id
    ensures r.Some? ==> ItemValue(r.value.rareness, r.value.power) == table[id]
  {
    if id in table then Some(Equipment(id, table[id].rareness, table[id].power)) else None
  }

  function GetWeaponById(values: ItemValues, id: nat): (r: Option<Equipment>)
    ensures r.Some? <==> id in values.weapon
    ensures r.Some? ==> r.value.id == id && ItemValue(r.value.rareness, r.value.power) == values.weapon[id]
  {
    FromTable(values.weapon, id)
  }

  function GetArmorById(values: ItemValues, id: nat): (r: Option<Equipment>)
    ensures r.Some? <==> id in values.armor
    ensures r.Some? ==> r.value.id == id && ItemValue(r.value.rareness, r.value.power) == values.armor[id]
  {
    FromTable(values.armor, id)
  }

  /**
   * The power really applied when the equipment is used: the efficiency table's
   * entry for its rareness and power. None when the table has no such entry (the
   * source throws for a missing rareness and yields `undefined` for a missing power).
   */
  function GetEquipmentEfficiency(values: ItemValues, e: Equipment): (r: Option<int>)
    ensures r.Some? <==> e.rareness in values.effect && e.power in values.effect[e.rareness]
    ensures r.Some? ==> r.value == values.effect[e.rareness][e.power]
  {
    if e.rareness in values.effect && e.power in values.effect[e.rareness]
    then Some(values.effect[e.rareness][e.power])
    else None
  }

  /** Looking up an id and then its efficiency reads the efficiency table at that id's rareness and power. */
  lemma WeaponEfficiencyFromTable(values: ItemValues, id: nat)
    requires id in values.weapon
    requires values.weapon[id].rareness in values.effect
    ensures GetWeaponById(values, id).Some?
    ensures GetEquipmentEfficiency(values, GetWeaponById(values, id).value)
         == Get(values.effect[values.weapon[id].rareness], values.weapon[id].power)
  {
  }

  /** The value a map holds for a key, if any. */
  function Get<K, V>(m: map<K, V>, k: K): Option<V> {
    if k in m then Some(m[k]) else None
  }

  /**
   * The walk of `generateRandomRareness` stops at rareness `r`: the draw is at most
   * the threshold of `r`, or the thresholds have no entry `r` (the source then
   * compares the draw with `undefined`, which is false). `thresholds[k]` is the
   * threshold of rareness `k + 1`.
   */
  predicate StopsAt(draw: int, thresholds: seq<int>, r: int) {
    r >= 1 && (r > |thresholds| || draw <= thresholds[r - 1])
  }

  /** `r` is the rareness the walk returns for `draw`: the first rareness it stops at. */
  predicate IsRarenessOf(draw: int, thresholds: seq<int>, r: int) {
    StopsAt(draw, thresholds, r) && forall k :: 1 <= k < r ==> !StopsAt(draw, thresholds, k)
  }

  /**
   * Draw a rareness: starting from 1, move up while the draw exceeds the current
   * rareness's threshold. `draw` is `Math.round(Math.random() * maxValue)`.
   */
  method GenerateRandomRareness(draw: int, thresholds: seq<int>) returns (rareness: int)
    ensures 1 <= rareness <= |thresholds| + 1
    ensures IsRarenessOf(draw, thresholds, rareness)
  {
    rareness := 1;
    while rareness <= |thresholds| && draw > thresholds[rareness - 1]
      invariant 1 <= rareness <= |thresholds| + 1
      invariant forall k :: 1 <= k < rareness ==> !StopsAt(draw, thresholds, k)
    {
      rareness := rareness + 1;
    }
  }

  /** The walk's result is unique: the characterisation pins one rareness. */
  lemma RarenessUnique(draw: int, thresholds: seq<int>, r1: int, r2: int)
    requires IsRarenessOf(draw, thresholds, r1) && IsRarenessOf(draw, thresholds, r2)
    ensures r1 == r2
  {
  }

  /** A larger draw never yields a smaller rareness. */
  lemma RarenessMonotone(draw1: int, draw2: int, thresholds: seq<int>, r1: int, r2: int)
    requires draw1 <= draw2
    requires IsRarenessOf(draw1, thresholds, r1) && IsRarenessOf(draw2, thresholds, r2)
    ensures r1 <= r2
  {
    if r2 < r1 {
      assert StopsAt(draw1, thresholds, r2);
    }
  }

  /**
   * A draw within the threshold of rareness `k` yields at most `k`; in particular,
   * with seven thresholds whose last is at least `maxValue`, every draw in
   * `0..maxValue` yields a rareness in 1..7.
   */
  lemma RarenessAtMost(draw: int, thresholds: seq<int>, k: int, r: int)
    requires 1 <= k <= |thresholds| && draw <= thresholds[k - 1]
    requires IsRarenessOf(draw, thresholds, r)
    ensures 1 <= r <= k
  {
    if r > k {
      assert StopsAt(draw, thresholds, k);
    }
  }
}

=== FILE: inventory_embed.dfy ===
/**
 * The inventory message (`DraftBotInventoryEmbed`): a main page showing the
 * equipped item of each category, a stock page listing the reserve slots, and
 * a reaction that flips between the two. Translated texts and the text of an
 * item's field are opaque strings; `format` (the template filler) is a parameter.
 */
module InventoryEmbed {
  import opened Wrappers

  /** An embed field as the chat platform shows it. */
  datatype EmbedField = EmbedField(name: string, value: string, inline: bool)

  /** The four item categories an inventory slot holds. */
  datatype Category = Weapon | Armor | Potion | Object

  /** A row of the player's inventory: the category, the slot number (0 is the equipped one) and the item's field. */
  datatype InventorySlot = InventorySlot(category: Category, slot: int, field: EmbedField)

  /** An item as the message sees it: its slot number and its field. */
  datatype Item = Item(slot: int, field: EmbedField)

  /** The number of slots of each category (slot 0 included). */
  datatype InventoryInfo = InventoryInfo(weaponSlots: int, armorSlots: int, potionSlots: int, objectSlots: int)

  /** The translated texts the message uses, already filled in where they take the player's name or an emote. */
  datatype InventoryTexts = InventoryTexts(
    mainTitle: string, mainFooter: string, stockTitle: string, stockFooter: string,
    weapons: string, armors: string, potions: string, objects: string,
    noSlot: string, emptySlot: string)

  /** A page of the message: title, fields and footer. */
  datatype Page = Page(title: string, fields: seq<EmbedField>, footer: string)

  /** The message: both pages, the page on display, and whether the main page is the current state. */
  datatype InventoryMessage = InventoryMessage(main: Page, stock: Page, shown: Page, isMainState: bool)

  /** No item is in slot `slot`. */
  predicate NoItemInSlot(items: seq<Item>, slot: int) {
    forall j :: 0 <= j < |items| ==> items[j].slot != slot
  }

  /** `items[k]` is the first item in slot `slot`. */
  predicate IsFirstInSlot(items: seq<Item>, slot: int, k: int) {
    0 <= k < |items| && items[k].slot == slot && forall j :: 0 <= j < k ==> items[j].slot != slot
  }

  /** The first item in slot `slot`, if any (`items.filter(item => item.slot === slot)[0]`). */
  function FirstInSlot(items: seq<Item>, slot: int): (r: Option<Item>)
    ensures r.None? <==> NoItemInSlot(items, slot)
    ensures r.Some? ==> exists k :: IsFirstInSlot(items, slot, k) && items[k] == r.value
  {
    if |items| == 0 then None
    else if items[0].slot == slot then Some(items[0])
    else
      var r := FirstInSlot(items[1..], slot);
      if r.Some? then
        var k :| IsFirstInSlot(items[1..], slot, k) && items[1..][k] == r.value;
        assert IsFirstInSlot(items, slot, k + 1);
        r
      else r
  }

  /** The stock line for reserve slot `slot`: the field text of its first item, or the empty-slot text. */
  function SlotLine(items: seq<Item>, slot: int, emptySlot: string): string {
    match FirstInSlot(items, slot)
    case None => emptySlot
    case Some(item) => item.field.value
  }

  /**
   * `line` is what the stock shows for slot `slot`: the empty-slot text when no
   * item is in the slot, otherwise the field text of the first item in it.
   */
  predicate ShowsSlot(items: seq<Item>, slot: int, emptySlot: string, line: string) {
    if NoItemInSlot(items, slot) then line == emptySlot
    else exists j :: 0 <= j < |items| && IsFirstInSlot(items, slot, j) && line == items[j].field.value
  }

  /** A slot's line shows that slot. */
  lemma SlotLineShows(items: seq<Item>, slot: int, emptySlot: string)
    ensures ShowsSlot(items, slot, emptySlot, SlotLine(items, slot, emptySlot))
  {
    if !NoItemInSlot(items, slot) {
      var r := FirstInSlot(items, slot);
      assert r.Some?;
      var j :| IsFirstInSlot(items, slot, j) && items[j] == r.value;
      assert 0 <= j < |items|;
    }
  }

  /** The lines of a stock field: one per reserve slot 1 to `slots - 1`, in order. */
  function StockLines(items: seq<Item>, slots: int, emptySlot: string): (lines: seq<string>)
    requires slots >= 1
    ensures |lines| == slots - 1
  {
    seq(slots - 1, k => SlotLine(items, k + 1, emptySlot))
  }

  /**
   * Line `k` of the stock shows reserve slot `k + 1`: the empty-slot text when no
   * item is in that slot, otherwise the field text of the first item in it.
   */
  lemma StockLinesShowSlots(items: seq<Item>, slots: int, emptySlot: string)
    requires slots >= 1
    ensures forall k :: 0 <= k < slots - 1 ==> ShowsSlot(items, k + 1, emptySlot, StockLines(items, slots, emptySlot)[k])
  {
    var lines := StockLines(items, slots, emptySlot);
    forall k | 0 <= k < slots - 1 ensures ShowsSlot(items, k + 1, emptySlot, lines[k]) {
      assert lines[k] == SlotLine(items, k + 1, emptySlot);
      SlotLineShows(items, k + 1, emptySlot);
    }
  }

  /** Lines each followed by a newline, concatenated. */
  function JoinLines(lines: seq<string>): string {
    if |lines| == 0 then "" else lines[0] + "\n" + JoinLines(lines[1..])
  }

  /** Adding a line at the end appends it and its newline. */
  lemma {:induction false} JoinLinesAppend(lines: seq<string>, line: string)
    ensures JoinLines(lines + [line]) == JoinLines(lines) + line + "\n"
  {
    if |lines| > 0 {
      assert (lines + [line])[1..] == lines[1..] + [line];
      JoinLinesAppend(lines[1..], line);
    }
  }

  /** The index of the first newline of `s`, or `|s|` if it has none. */
  function FirstNewline(s: string): (k: nat)
    ensures k <= |s| && (k < |s| ==> s[k] == '\n')
    ensures forall j :: 0 <= j < k ==> s[j] != '\n'
  {
    if |s| == 0 || s[0] == '\n' then 0 else 1 + FirstNewline(s[1..])
  }

  /** Split a text into its lines, the last one possibly without a newline. */
  function SplitLines(s: string): seq<string>
    decreases |s|
  {
    if |s| == 0 then []
    else
      var k := FirstNewline(s);
      if k == |s| then [s] else [s[..k]] + SplitLines(s[k + 1..])
  }

  /** A line without a newline in it. */
  predicate IsLine(line: string) {
    forall j :: 0 <= j < |line| ==> line[j] != '\n'
  }

  /** Lines without newlines can be read back from their join: the stock text is unambiguous. */
  lemma {:induction false} SplitJoin(lines: seq<string>)
    requires forall k :: 0 <= k < |lines| ==> IsLine(lines[k])
    ensures SplitLines(JoinLines(lines)) == lines
  {
    if |lines| > 0 {
      var s := JoinLines(lines);
      var rest := JoinLines(lines[1..]);
      assert s == lines[0] + "\n" + rest;
      assert IsLine(lines[0]);
      FirstNewlineOf(lines[0], rest);
      assert s[..|lines[0]|] == lines[0];
      assert s[|lines[0]| + 1..] == rest;
      SplitJoin(lines[1..]);
    }
  }

  /** The first newline after a newline-free line is the one that ends it. */
  lemma FirstNewlineOf(line: string, rest: string)
    requires IsLine(line)
    ensures FirstNewline(line + "\n" + rest) == |line|
  {
    var s := line + "\n" + rest;
    assert s[|line|] == '\n';
  }

  /**
   * The text of a stock field: the no-slot text when there is no reserve slot,
   * and otherwise one newline-terminated line per reserve slot, in slot order.
   */
  function StockValue(items: seq<Item>, slots: int, noSlot: string, emptySlot: string): string {
    if slots <= 1 then noSlot else JoinLines(StockLines(items, slots, emptySlot))
  }

  /**
   * The stock field of one category. Its name fills the category title with the
   * number of reserve items (all items but the equipped one) and of reserve
   * slots; its value is the category's stock text.
   */
  method CreateStockField(
    title: string, format: (string, int, int) -> string, noSlot: string, emptySlot: string,
    items: seq<Item>, slots: int)
    returns (f: EmbedField)
    ensures f.name == format(title, |items| - 1, slots - 1) && !f.inline
    ensures slots <= 1 ==> f.value == noSlot
    ensures slots > 1 ==> f.value == JoinLines(StockLines(items, slots, emptySlot))
    ensures f == EmbedField(format(title, |items| - 1, slots - 1), StockValue(items, slots, noSlot, emptySlot), false)
  {
    var formattedTitle := format(title, |items| - 1, slots - 1);
    if slots <= 1 {
      return EmbedField(formattedTitle, noSlot, false);
    }
    var value := StockText(items, slots, emptySlot);
    f := EmbedField(formattedTitle, value, false);
  }

  /** The stock text for one or more reserve slots, built line by line as the source's loop does. */
  method StockText(items: seq<Item>, slots: int, emptySlot: string) returns (value: string)
    requires slots > 1
    ensures value == JoinLines(StockLines(items, slots, emptySlot))
  {
    ghost var lines := StockLines(items, slots, emptySlot);
    value := "";
    var i := 1;
    while i < slots
      invariant 1 <= i <= slots
      invariant value == JoinLines(lines[..i - 1])
    {
      var line := SlotLine(items, i, emptySlot);
      assert lines[..i] == lines[..i - 1] + [line];
      JoinLinesAppend(lines[..i - 1], line);
      value := value + line + "\n";
      i := i + 1;
    }
    assert lines[..slots - 1] == lines;
  }

  /** The displayed page matches the state flag. */
  predicate Consistent(m: InventoryMessage) {
    m.shown == (if m.isMainState then m.main else m.stock)
  }

  /** The reaction: show the other page and flip the state. */
  function ReactionCallback(m: InventoryMessage): (r: InventoryMessage)
    ensures r.isMainState == !m.isMainState
    ensures Consistent(r)
    ensures r.main == m.main && r.stock == m.stock
  {
    if m.isMainState then m.(shown := m.stock, isMainState := false)
    else m.(shown := m.main, isMainState := true)
  }

  /** Reacting twice restores the message. */
  lemma ReactionTwiceRestores(m: InventoryMessage)
    requires Consistent(m)
    ensures ReactionCallback(ReactionCallback(m)) == m
  {
  }

  /**
   * The main page's fields: the equipped (slot 0) item of weapons, armors,
   * potions and objects, in that order. None when a category has no equipped
   * item (the source then reads a field of `undefined` and throws).
   */
  function MainFields(weapons: seq<Item>, armors: seq<Item>, potions: seq<Item>, objects: seq<Item>): (r: Option<seq<EmbedField>>)
    ensures r.Some? <==> (FirstInSlot(weapons, 0).Some? && FirstInSlot(armors, 0).Some?
                          && FirstInSlot(potions, 0).Some? && FirstInSlot(objects, 0).Some?)
    ensures r.Some? ==> r.value == [
      FirstInSlot(weapons, 0).value.field, FirstInSlot(armors, 0).value.field,
      FirstInSlot(potions, 0).value.field, FirstInSlot(objects, 0).value.field]
  {
    match (FirstInSlot(weapons, 0), FirstInSlot(armors, 0), FirstInSlot(potions, 0), FirstInSlot(objects, 0))
    case (Some(w), Some(a), Some(p), Some(o)) => Some([w.field, a.field, p.field, o.field])
    case _ => None
  }

  /** Build the message, showing the main page. */
  method NewInventoryMessage(
    texts: InventoryTexts, format: (string, int, int) -> string,
    weapons: seq<Item>, armors: seq<Item>, potions: seq<Item>, objects: seq<Item>, info: InventoryInfo)
    returns (r: Option<InventoryMessage>)
    ensures r.Some? <==> MainFields(weapons, armors, potions, objects).Some?
    ensures r.Some? ==> Consistent(r.value) && r.value.isMainState
    ensures r.Some? ==> r.value.main == Page(texts.mainTitle, MainFields(weapons, armors, potions, objects).value, texts.mainFooter)
    ensures r.Some? ==> r.value.stock.title == texts.stockTitle && r.value.stock.footer == texts.stockFooter
    ensures r.Some? ==> r.value.stock.fields == [
      EmbedField(format(texts.weapons, |weapons| - 1, info.weaponSlots - 1), StockValue(weapons, info.weaponSlots, texts.noSlot, texts.emptySlot), false),
      EmbedField(format(texts.armors, |armors| - 1, info.armorSlots - 1), StockValue(armors, info.armorSlots, texts.noSlot, texts.emptySlot), false),
      EmbedField(format(texts.potions, |potions| - 1, info.potionSlots - 1), StockValue(potions, info.potionSlots, texts.noSlot, texts.emptySlot), false),
      EmbedField(format(texts.objects, |objects| - 1, info.objectSlots - 1), StockValue(objects, info.objectSlots, texts.noSlot, texts.emptySlot), false)]
  {
    var mainFields := MainFields(weapons, armors, potions, objects);
    if mainFields.None? {
      return None;
    }
    var w := CreateStockField(texts.weapons, format, texts.noSlot, texts.emptySlot, weapons, info.weaponSlots);
    var a := CreateStockField(texts.armors, format, texts.noSlot, texts.emptySlot, armors, info.armorSlots);
    var p := CreateStockField(texts.potions, format, texts.noSlot, texts.emptySlot, potions, info.potionSlots);
    var o := CreateStockField(texts.objects, format, texts.noSlot, texts.emptySlot, objects, info.objectSlots);
    var main := Page(texts.mainTitle, mainFields.value, texts.mainFooter);
    var stock := Page(texts.stockTitle, [w, a, p, o], texts.stockFooter);
    r := Some(InventoryMessage(main, stock, main, true));
  }

  /** The inventory rows of one category, in inventory order, as items. */
  function ItemsOf(rows: seq<InventorySlot>, c: Category): (items: seq<Item>)
    ensures |items| <= |rows|
  {
    if |rows| == 0 then []
    else
      var rest := ItemsOf(rows[1..], c);
      if rows[0].category == c then [Item(rows[0].slot, rows[0].field)] + rest else rest
  }

  /** The builder's split of the inventory into the four category lists. */
  datatype Categories = Categories(weapons: seq<Item>, armors: seq<Item>, potions: seq<Item>, objects: seq<Item>)

  function Build(rows: seq<InventorySlot>): (r: Categories)
    ensures |r.weapons| + |r.armors| + |r.potions| + |r.objects| == |rows|
  {
    PartitionSizes(rows);
    Categories(ItemsOf(rows, Weapon), ItemsOf(rows, Armor), ItemsOf(rows, Potion), ItemsOf(rows, Object))
  }

  /** Every row lands in exactly one category list: the list sizes add up to the inventory size. */
  lemma {:induction false} PartitionSizes(rows: seq<InventorySlot>)
    ensures |ItemsOf(rows, Weapon)| + |ItemsOf(rows, Armor)| + |ItemsOf(rows, Potion)| + |ItemsOf(rows, Object)| == |rows|
  {
    if |rows| > 0 {
      PartitionSizes(rows[1..]);
    }
  }

  /** A category list holds only rows of that category, each with its own slot and field. */
  lemma {:induction false} ItemsOfSound(rows: seq<InventorySlot>, c: Category, item: Item)
    requires item in ItemsOf(rows, c)
    ensures exists k :: 0 <= k < |rows| && rows[k].category == c && item == Item(rows[k].slot, rows[k].field)
  {
    if |rows| > 0 {
      if !(rows[0].category == c && item == Item(rows[0].slot, rows[0].field)) {
        ItemsOfSound(rows[1..], c, item);
        var k :| 0 <= k < |rows[1..]| && rows[1..][k].category == c && item == Item(rows[1..][k].slot, rows[1..][k].field);
        assert rows[k + 1] == rows[1..][k];
      }
    }
  }

  /** Every row of a category appears in that category's list. */
  lemma {:induction false} ItemsOfComplete(rows: seq<InventorySlot>, k: nat)
    requires k < |rows|
    ensures Item(rows[k].slot, rows[k].field) in ItemsOf(rows, rows[k].category)
  {
    if k > 0 {
      ItemsOfComplete(rows[1..], k - 1);
      assert rows[1..][k - 1] == rows[k];
    }
  }

  /** Filtering a concatenation filters each part: the category lists keep inventory order and repeats. */
  lemma {:induction false} ItemsOfAppend(a: seq<InventorySlot>, b: seq<InventorySlot>, c: Category)
    ensures ItemsOf(a + b, c) == ItemsOf(a, c) + ItemsOf(b, c)
  {
    if |a| > 0 {
      assert (a + b)[1..] == a[1..] + b;
      ItemsOfAppend(a[1..], b, c);
    } else {
      assert a + b == b;
    }
  }

  /** A single row is listed, once, in its own category's list and in no other. */
  lemma ItemsOfSingle(row: InventorySlot, c: Category)
    ensures ItemsOf([row], c) == if row.category == c then [Item(row.slot, row.field)] else []
  {
    assert [row][1..] == [];
  }

  /** The list the builder made for category `c`. */
  function ListOf(r: Categories, c: Category): seq<Item> {
    match c
    case Weapon => r.weapons
    case Armor => r.armors
    case Potion => r.potions
    case Object => r.objects
  }

  /** Building from a concatenation concatenates the category lists. */
  lemma BuildAppend(a: seq<InventorySlot>, b: seq<InventorySlot>)
    ensures forall c :: ListOf(Build(a + b), c) == ListOf(Build(a), c) + ListOf(Build(b), c)
  {
    ItemsOfAppend(a, b, Weapon);
    ItemsOfAppend(a, b, Armor);
    ItemsOfAppend(a, b, Potion);
    ItemsOfAppend(a, b, Object);
  }

  /** Building from one row lists it in its category only. */
  lemma BuildSingle(row: InventorySlot)
    ensures forall c :: ListOf(Build([row]), c) == if row.category == c then [Item(row.slot, row.field)] else []
  {
    ItemsOfSingle(row, Weapon);
    ItemsOfSingle(row, Armor);
    ItemsOfSingle(row, Potion);
    ItemsOfSingle(row, Object);
  }
}

=== FILE: logs_database.dfy ===
/**
 * The record-building logic of the logs database (`LogsDatabase`). The database
 * is an append-only sequence of abstract records; the id of a record is its
 * index in that sequence. Players are identified by their Discord id, and
 * `date` is the opaque timestamp the source takes from `getDateLogs()`.
 */
module LogsDatabase {
  import opened Wrappers

  /** The base stats of a monster. */
  datatype MonsterStats = MonsterStats(maxFightPoint: int, attack: int, defense: int, speed: int)

  /** A fighter of a finished fight, as the log sees it. */
  datatype Fighter =
    | PlayerFighter(discordId: string, score: int, classId: int, actionsHistory: seq<string>)
    | MonsterFighter(monsterId: string, level: int, stats: MonsterStats)

  /** The position of a fighter in the fight's two-element array. */
  type FighterIndex = i: nat | i < 2

  /**
   * A finished fight: the two fighters, the turn count, the index of the winning
   * fighter (None when the fight has none), the draw flag and whether it was friendly.
   */
  datatype Fight = Fight(fighter0: Fighter, fighter1: Fighter, turn: nat, winner: Option<FighterIndex>, isDraw: bool, friendly: bool)

  /** The reason attached to a change; changes with reason Ignore are not logged. */
  datatype ChangeReason = Ignore | Counted(code: nat)

  /** How often one action name occurs in a fighter's history. */
  datatype ActionCount = ActionCount(name: string, count: nat)

  /** The log records the modelled operations append. */
  datatype LogRecord =
    | FightResult(player1: string, player1Points: int, player2: string, player2Points: int,
                  turn: nat, winner: nat, friendly: bool, date: int)
    | FightActionsUsed(fightId: nat, playerNumber: nat, action: string, classId: int, count: nat)
    | PveFightResult(player: string, monsterId: string, monsterLevel: int, monsterFightPoints: int,
                     monsterAttack: int, monsterDefense: int, monsterSpeed: int, turn: nat, winner: nat, date: int)
    | PveFightActionsUsed(pveFightId: nat, action: string, classId: int, count: nat)
    | TimeWarp(player: string, time: int, reason: ChangeReason, date: int)
    | OccupiedAlteration(player: string, duration: int, reason: ChangeReason, date: int)
    | StandardAlteration(player: string, alteration: string, reason: ChangeReason, date: int)
    | GuildShopBuyout(player: string, shopItem: int, amount: int, date: int)
    | PetEntity(gameId: nat, creationTimestamp: int)
    | PetTransfer(playerPetId: Option<nat>, guildPetId: Option<nat>, date: int)

  // ---------------------------------------------------------------------------
  // Action usage tally

  /** The names a tally has entries for. */
  function NamesOf(t: seq<ActionCount>): set<string> {
    set k | 0 <= k < |t| :: t[k].name
  }

  /** No name has two entries. */
  predicate DistinctNames(t: seq<ActionCount>) {
    forall i, j :: 0 <= i < j < |t| ==> t[i].name != t[j].name
  }

  /** The sum of a tally's counts. */
  function Sum(t: seq<ActionCount>): nat {
    if |t| == 0 then 0 else Sum(t[..|t| - 1]) + t[|t| - 1].count
  }

  /** The position of `name`'s entry in a tally, if it has one. */
  function IndexOf(t: seq<ActionCount>, name: string): (r: Option<nat>)
    ensures r.Some? ==> r.value < |t| && t[r.value].name == name
    ensures r.None? ==> name !in NamesOf(t)
  {
    if |t| == 0 then None
    else if t[|t| - 1].name == name then Some(|t| - 1)
    else
      var r := IndexOf(t[..|t| - 1], name);
      assert NamesOf(t) == NamesOf(t[..|t| - 1]) + {t[|t| - 1].name};
      r
  }

  /** Raising one entry's count raises the sum by one. */
  lemma {:induction false} SumIncrement(t: seq<ActionCount>, j: nat)
    requires j < |t|
    ensures Sum(t[j := ActionCount(t[j].name, t[j].count + 1)]) == Sum(t) + 1
  {
    var u := t[j := ActionCount(t[j].name, t[j].count + 1)];
    if j < |t| - 1 {
      assert u[..|u| - 1] == t[..|t| - 1][j := ActionCount(t[j].name, t[j].count + 1)];
      SumIncrement(t[..|t| - 1], j);
    } else {
      assert u[..|u| - 1] == t[..|t| - 1];
    }
  }

  /**
   * Count one more use of `name`: raise its entry, or add an entry of 1 at the end
   * (`used[name] ? used[name]++ : used[name] = 1`).
   */
  function Increment(t: seq<ActionCount>, name: string): (u: seq<ActionCount>)
    requires DistinctNames(t)
    ensures DistinctNames(u)
    ensures NamesOf(u) == NamesOf(t) + {name}
    ensures Sum(u) == Sum(t) + 1
    ensures forall k :: 0 <= k < |u| ==> u[k].count == (if k < |t| then t[k].count else 0) + (if u[k].name == name then 1 else 0)
    ensures |t| <= |u| && forall k :: 0 <= k < |t| ==> u[k].name == t[k].name
  {
    match IndexOf(t, name)
    case Some(j) =>
      SumIncrement(t, j);
      RaiseKeepsNames(t, j, t[j].count + 1);
      t[j := ActionCount(name, t[j].count + 1)]
    case None =>
      AppendNames(t, ActionCount(name, 1));
      t + [ActionCount(name, 1)]
  }

  /** Changing the count of an entry keeps the tally's names. */
  lemma RaiseKeepsNames(t: seq<ActionCount>, j: nat, count: nat)
    requires j < |t|
    ensures NamesOf(t[j := ActionCount(t[j].name, count)]) == NamesOf(t)
  {
    var u := t[j := ActionCount(t[j].name, count)];
    forall x | x in NamesOf(t) ensures x in NamesOf(u) {
      var k :| 0 <= k < |t| && t[k].name == x;
      assert u[k].name == x;
    }
  }

  /** A new last entry adds its name to the tally's names, and `Sum` its count. */
  lemma AppendNames(t: seq<ActionCount>, e: ActionCount)
    ensures NamesOf(t + [e]) == NamesOf(t) + {e.name}
    ensures Sum(t + [e]) == Sum(t) + e.count
  {
    var u := t + [e];
    assert u[..|u| - 1] == t;
    forall x | x in NamesOf(t) ensures x in NamesOf(u) {
      var k :| 0 <= k < |t| && t[k].name == x;
      assert u[k].name == x;
    }
    assert u[|t|].name == e.name;
  }

  /**
   * `t` tallies `history`: one entry per distinct name of the history and none
   * other, each holding the number of times its name occurs.
   */
  ghost predicate IsTallyOf(t: seq<ActionCount>, history: seq<string>) {
    && DistinctNames(t)
    && (forall name :: name in NamesOf(t) <==> name in history)
    && (forall k :: 0 <= k < |t| ==> t[k].count == multiset(history)[t[k].name])
  }

  /** Counting one more action keeps a tally a tally of the longer history. */
  lemma IncrementTallies(t: seq<ActionCount>, history: seq<string>, name: string)
    requires IsTallyOf(t, history)
    ensures IsTallyOf(Increment(t, name), history + [name])
  {
    var u := Increment(t, name);
    var h := history + [name];
    assert forall x :: x in h <==> x in history || x == name;
    forall k | 0 <= k < |u| ensures u[k].count == multiset(h)[u[k].name] {
      if k >= |t| {
        assert u[k].name !in NamesOf(t);
      }
    }
  }

  /** The position of the first occurrence of `x` in `s`. */
  function FirstIndex(s: seq<string>, x: string): (k: nat)
    requires x in s
    ensures k < |s| && s[k] == x
    ensures forall j :: 0 <= j < k ==> s[j] != x
  {
    if s[0] == x then 0 else 1 + FirstIndex(s[1..], x)
  }

  /** Appending to a sequence does not move the first occurrence of what it already holds. */
  lemma FirstIndexExtend(s: seq<string>, y: string, x: string)
    requires x in s
    ensures FirstIndex(s + [y], x) == FirstIndex(s, x)
  {
    var k := FirstIndex(s, x);
    var k' := FirstIndex(s + [y], x);
    assert (s + [y])[k] == x;
  }

  /** The tally's entries come in the order in which their names are first used. */
  ghost predicate InFirstUseOrder(t: seq<ActionCount>, history: seq<string>) {
    forall i, j :: 0 <= i < j < |t| && t[i].name in history && t[j].name in history ==>
      FirstIndex(history, t[i].name) < FirstIndex(history, t[j].name)
  }

  /** Counting one more action keeps the entries in order of first use. */
  lemma IncrementKeepsOrder(t: seq<ActionCount>, history: seq<string>, name: string)
    requires IsTallyOf(t, history) && InFirstUseOrder(t, history)
    ensures InFirstUseOrder(Increment(t, name), history + [name])
  {
    var u := Increment(t, name);
    var h := history + [name];
    forall i, j | 0 <= i < j < |u| && u[i].name in h && u[j].name in h
      ensures FirstIndex(h, u[i].name) < FirstIndex(h, u[j].name)
    {
      IncrementPairOrder(t, history, name, i, j);
    }
  }

  /** After counting `name`, any two entries of the tally are still in order of first use. */
  lemma IncrementPairOrder(t: seq<ActionCount>, history: seq<string>, name: string, i: nat, j: nat)
    requires IsTallyOf(t, history) && InFirstUseOrder(t, history)
    requires i < j < |Increment(t, name)|
    ensures Increment(t, name)[i].name in history + [name] && Increment(t, name)[j].name in history + [name]
    ensures FirstIndex(history + [name], Increment(t, name)[i].name) < FirstIndex(history + [name], Increment(t, name)[j].name)
  {
    var u := Increment(t, name);
    assert u[i].name == t[i].name && t[i].name in NamesOf(t);
    FirstIndexExtend(history, name, u[i].name);
    if j < |t| {
      assert u[j].name == t[j].name && t[j].name in NamesOf(t);
      FirstIndexExtend(history, name, u[j].name);
    } else {
      assert u[j].name !in NamesOf(t);
      assert u[j].name == name && name !in history;
    }
  }

  /**
   * The action-usage tally of a history, built by counting the actions one after
   * another: one entry per distinct action name, in order of first use, whose count
   * is the number of times the name occurs; the counts add up to the history's length.
   */
  function Tally(history: seq<string>): (t: seq<ActionCount>)
    ensures IsTallyOf(t, history)
    ensures InFirstUseOrder(t, history)
    ensures Sum(t) == |history|
  {
    if |history| == 0 then []
    else
      var prefix := history[..|history| - 1];
      var last := history[|history| - 1];
      assert history == prefix + [last];
      IncrementTallies(Tally(prefix), prefix, last);
      IncrementKeepsOrder(Tally(prefix), prefix, last);
      Increment(Tally(prefix), last)
  }

  /** Every name that occurs has exactly one entry, holding its number of occurrences. */
  lemma TallyCountsEveryName(history: seq<string>, name: string)
    requires name in history
    ensures exists k :: 0 <= k < |Tally(history)| && Tally(history)[k] == ActionCount(name, multiset(history)[name])
  {
    var t := Tally(history);
    assert name in NamesOf(t);
  }

  /** The usage rows of one fighter in a fight log, one per tally entry. */
  function ActionRows(fightId: nat, player: nat, classId: int, t: seq<ActionCount>): seq<LogRecord> {
    seq(|t|, k requires 0 <= k < |t| => FightActionsUsed(fightId, player, t[k].name, classId, t[k].count))
  }

  /** The usage rows of the player in a PvE fight log. */
  function PveActionRows(fightId: nat, classId: int, t: seq<ActionCount>): seq<LogRecord> {
    seq(|t|, k requires 0 <= k < |t| => PveFightActionsUsed(fightId, t[k].name, classId, t[k].count))
  }

  /**
   * A fighter's usage rows in a PvP fight log hold a row for an action, with its
   * number of uses, exactly when the action occurs in the fighter's history; no
   * row names any other count for it.
   */
  lemma UsageRowsCountActions(fightId: nat, player: nat, classId: int, history: seq<string>, name: string, count: nat)
    ensures FightActionsUsed(fightId, player, name, classId, count) in ActionRows(fightId, player, classId, Tally(history))
        <==> name in history && count == multiset(history)[name]
  {
    var t := Tally(history);
    var rows := ActionRows(fightId, player, classId, t);
    if name in history {
      assert name in NamesOf(t);
      var k :| 0 <= k < |t| && t[k].name == name;
      assert rows[k] == FightActionsUsed(fightId, player, name, classId, t[k].count);
    }
    if FightActionsUsed(fightId, player, name, classId, count) in rows {
      var k :| 0 <= k < |rows| && rows[k] == FightActionsUsed(fightId, player, name, classId, count);
      assert t[k].name in NamesOf(t);
    }
  }

  /** The same for the player's usage rows in a PvE fight log. */
  lemma PveUsageRowsCountActions(fightId: nat, classId: int, history: seq<string>, name: string, count: nat)
    ensures PveFightActionsUsed(fightId, name, classId, count) in PveActionRows(fightId, classId, Tally(history))
        <==> name in history && count == multiset(history)[name]
  {
    var t := Tally(history);
    var rows := PveActionRows(fightId, classId, t);
    if name in history {
      assert name in NamesOf(t);
      var k :| 0 <= k < |t| && t[k].name == name;
      assert rows[k] == PveFightActionsUsed(fightId, name, classId, t[k].count);
    }
    if PveFightActionsUsed(fightId, name, classId, count) in rows {
      var k :| 0 <= k < |rows| && rows[k] == PveFightActionsUsed(fightId, name, classId, count);
      assert t[k].name in NamesOf(t);
    }
  }

  // ---------------------------------------------------------------------------
  // Fight results

  function At(f: Fight, i: FighterIndex): Fighter {
    if i == 0 then f.fighter0 else f.fighter1
  }

  /** The fighter logged as player 1: `fighters[(turn + 1) % 2]`; an odd turn count puts fighter 0 first. */
  function Player1Index(turn: nat): (i: FighterIndex)
    ensures i == 0 <==> turn % 2 == 1
  {
    (turn + 1) % 2
  }

  /** The fighter logged as player 2: the other one. */
  function OtherIndex(i: FighterIndex): (j: FighterIndex)
    ensures j != i
  {
    if i == 0 then 1 else 0
  }

  /** Player 1 and player 2 are the fight's two fighters, each once. */
  lemma PlayersAreTheFighters(f: Fight)
    ensures multiset{At(f, Player1Index(f.turn)), At(f, OtherIndex(Player1Index(f.turn)))} == multiset{f.fighter0, f.fighter1}
  {
  }

  /** The PvP winner code: 0 for a draw, 1 when player 1 won, 2 otherwise. */
  function PvpWinnerCode(f: Fight, player1: FighterIndex): (code: nat)
    ensures code <= 2
    ensures code == 0 <==> f.isDraw
    ensures code == 1 <==> !f.isDraw && f.winner == Some(player1)
  {
    if f.isDraw then 0 else if f.winner == Some(player1) then 1 else 2
  }

  /** Both fighters are players. */
  predicate IsPvp(f: Fight) {
    f.fighter0.PlayerFighter? && f.fighter1.PlayerFighter?
  }

  /** The log after a fight is logged, and the id of the fight result, if one was written. */
  datatype Logged = Logged(log: seq<LogRecord>, fightId: Option<nat>)

  /**
   * Log a PvP fight: a result row, then for player 1 and then player 2 one usage
   * row per distinct action they used. A fight that is not between two players
   * writes nothing and yields no id.
   */
  function LogFight(f: Fight, log: seq<LogRecord>, date: int): (r: Logged)
    ensures !IsPvp(f) ==> r == Logged(log, None)
    ensures IsPvp(f) ==> r.fightId == Some(|log|) && |log| < |r.log| && r.log[..|log|] == log
    ensures IsPvp(f) ==>
      var p1 := At(f, Player1Index(f.turn));
      var p2 := At(f, OtherIndex(Player1Index(f.turn)));
      && r.log[|log|] == FightResult(p1.discordId, p1.score, p2.discordId, p2.score, f.turn,
                                     PvpWinnerCode(f, Player1Index(f.turn)), f.friendly, date)
      && r.log[|log| + 1..] == ActionRows(|log|, 1, p1.classId, Tally(p1.actionsHistory))
                               + ActionRows(|log|, 2, p2.classId, Tally(p2.actionsHistory))
  {
    if !IsPvp(f) then Logged(log, None)
    else
      var i1 := Player1Index(f.turn);
      var p1 := At(f, i1);
      var p2 := At(f, OtherIndex(i1));
      var id := |log|;
      var result := FightResult(p1.discordId, p1.score, p2.discordId, p2.score, f.turn, PvpWinnerCode(f, i1), f.friendly, date);
      var rows := ActionRows(id, 1, p1.classId, Tally(p1.actionsHistory)) + ActionRows(id, 2, p2.classId, Tally(p2.actionsHistory));
      assert (log + [result] + rows)[..|log|] == log;
      assert (log + [result] + rows)[|log| + 1..] == rows;
      Logged(log + [result] + rows, Some(id))
  }

  /** In a PvE fight, the index of the player and of the monster, whichever order they are in. */
  function PveSides(f: Fight): (r: Option<(FighterIndex, FighterIndex)>)
    ensures r.Some? <==> (f.fighter0.PlayerFighter? && f.fighter1.MonsterFighter?)
                         || (f.fighter0.MonsterFighter? && f.fighter1.PlayerFighter?)
    ensures r.Some? ==> r.value.0 != r.value.1
    ensures r.Some? ==> At(f, r.value.0).PlayerFighter? && At(f, r.value.1).MonsterFighter?
  {
    if f.fighter0.PlayerFighter? && f.fighter1.MonsterFighter? then Some((0, 1))
    else if f.fighter0.MonsterFighter? && f.fighter1.PlayerFighter? then Some((1, 0))
    else None
  }

  /** The PvE winner code: 0 when nobody won, 1 when the player won, 2 when the monster did. */
  function PveWinnerCode(f: Fight, player: FighterIndex): (code: nat)
    ensures code <= 2
    ensures code == 0 <==> f.winner.None?
    ensures code == 1 <==> f.winner == Some(player)
  {
    match f.winner
    case None => 0
    case Some(w) => if w == player then 1 else 2
  }

  /**
   * Log a PvE fight: a result row with the monster's base stats, then one usage
   * row per distinct action of the player. Anything but one player against one
   * monster writes nothing.
   */
  function LogPveFight(f: Fight, log: seq<LogRecord>, date: int): (r: seq<LogRecord>)
    ensures PveSides(f).None? ==> r == log
    ensures PveSides(f).Some? ==> |log| < |r| && r[..|log|] == log
    ensures PveSides(f).Some? ==>
      var player := At(f, PveSides(f).value.0);
      var monster := At(f, PveSides(f).value.1);
      && r[|log|] == PveFightResult(player.discordId, monster.monsterId, monster.level, monster.stats.maxFightPoint,
                                    monster.stats.attack, monster.stats.defense, monster.stats.speed, f.turn,
                                    PveWinnerCode(f, PveSides(f).value.0), date)
      && r[|log| + 1..] == PveActionRows(|log|, player.classId, Tally(player.actionsHistory))
  {
    match PveSides(f)
    case None => log
    case Some((pi, mi)) =>
      var player := At(f, pi);
      var monster := At(f, mi);
      var result := PveFightResult(player.discordId, monster.monsterId, monster.level, monster.stats.maxFightPoint,
                                   monster.stats.attack, monster.stats.defense, monster.stats.speed, f.turn,
                                   PveWinnerCode(f, pi), date);
      var rows := PveActionRows(|log|, player.classId, Tally(player.actionsHistory));
      assert (log + [result] + rows)[..|log|] == log;
      assert (log + [result] + rows)[|log| + 1..] == rows;
      log + [result] + rows
  }

  // ---------------------------------------------------------------------------
  // Routed records

  /** Log a time warp, unless its reason is Ignore. */
  function LogTimeWarp(log: seq<LogRecord>, player: string, time: int, reason: ChangeReason, date: int): (r: seq<LogRecord>)
    ensures reason == Ignore <==> r == log
    ensures reason != Ignore ==> r == log + [TimeWarp(player, time, reason, date)]
  {
    if reason == Ignore then log else log + [TimeWarp(player, time, reason, date)]
  }

  /**
   * Log an alteration: the occupied alteration (tag `occupied`) goes to its own
   * table with its duration; every other alteration goes to the standard table by name.
   */
  function LogAlteration(log: seq<LogRecord>, player: string, alteration: string, occupied: string,
                         reason: ChangeReason, duration: int, date: int): (r: seq<LogRecord>)
    ensures |r| == |log| + 1 && r[..|log|] == log
    ensures r[|log|].OccupiedAlteration? <==> alteration == occupied
    ensures alteration == occupied ==> r[|log|] == OccupiedAlteration(player, duration, reason, date)
    ensures alteration != occupied ==> r[|log|] == StandardAlteration(player, alteration, reason, date)
  {
    var record :=
      if alteration == occupied then OccupiedAlteration(player, duration, reason, date)
      else StandardAlteration(player, alteration, reason, date);
    assert (log + [record])[..|log|] == log;
    log + [record]
  }

  /** Guild shop items are aligned with the food list, shifted by this many non-food items. */
  const FoodShopOffset: int := 6

  /** Log the purchase of `amount` units of the food at `foodIndex` in the guild shop. */
  function LogFoodGuildShopBuyout(log: seq<LogRecord>, player: string, foodIndex: int, amount: int, date: int): (r: seq<LogRecord>)
    ensures |r| == |log| + 1 && r[..|log|] == log
    ensures r[|log|].GuildShopBuyout? && r[|log|].shopItem == foodIndex + FoodShopOffset
    ensures r[|log|].amount == amount && r[|log|].player == player && r[|log|].date == date
  {
    var record := GuildShopBuyout(player, foodIndex + FoodShopOffset, amount, date);
    assert (log + [record])[..|log|] == log;
    log + [record]
  }

  // ---------------------------------------------------------------------------
  // Pet entities

  /** Seconds since the epoch of a date in milliseconds, rounded down (`Math.floor(ms / 1000)`). */
  function SecondsOf(ms: int): (s: int)
    ensures s * 1000 <= ms < s * 1000 + 1000
  {
    ms / 1000
  }

  /** The position of the first record equal to `record`, if any. */
  function Find(log: seq<LogRecord>, record: LogRecord): (r: Option<nat>)
    ensures r.Some? ==> r.value < |log| && log[r.value] == record
    ensures r.None? ==> record !in log
    ensures r.Some? ==> forall k :: 0 <= k < r.value ==> log[k] != record
  {
    if |log| == 0 then None
    else if log[0] == record then Some(0)
    else
      match Find(log[1..], record)
      case None => None
      case Some(k) => Some(k + 1)
  }

  /** The log after a find-or-create, and the id of the found or created record. */
  datatype Found = Found(log: seq<LogRecord>, id: nat)

  /**
   * Find the log entity of a pet (its game id and creation date in seconds), or
   * create it at the end of the log.
   */
  function FindOrCreatePetEntity(log: seq<LogRecord>, gameId: nat, creationMs: int): (r: Found)
    ensures r.id < |r.log| && r.log[r.id] == PetEntity(gameId, SecondsOf(creationMs))
    ensures PetEntity(gameId, SecondsOf(creationMs)) in log ==> r.log == log
    ensures PetEntity(gameId, SecondsOf(creationMs)) !in log ==> r.log == log + [PetEntity(gameId, SecondsOf(creationMs))]
  {
    var record := PetEntity(gameId, SecondsOf(creationMs));
    match Find(log, record)
    case Some(k) => Found(log, k)
    case None => Found(log + [record], |log|)
  }

  /** Finding or creating the same pet again changes nothing and yields the same id. */
  lemma FindOrCreateIdempotent(log: seq<LogRecord>, gameId: nat, creationMs: int)
    ensures var once := FindOrCreatePetEntity(log, gameId, creationMs);
      FindOrCreatePetEntity(once.log, gameId, creationMs) == once
  {
    var record := PetEntity(gameId, SecondsOf(creationMs));
    var once := FindOrCreatePetEntity(log, gameId, creationMs);
    if record !in log {
      var k := Find(once.log, record);
      assert once.log[|log|] == record;
      assert k.Some?;
    }
  }

  /** A pet as the transfer log names it: its game id and creation date in milliseconds. */
  datatype PetRef = PetRef(gameId: nat, creationMs: int)

  /** `rec` is the log entity of the given pet. */
  predicate IsEntityOf(rec: LogRecord, pet: Option<PetRef>) {
    pet.Some? && rec == PetEntity(pet.value.gameId, SecondsOf(pet.value.creationMs))
  }

  /**
   * Every record `grown` adds to `base` is the entity of one of the two pets, and
   * none repeats a record before it: entities are only created when missing.
   */
  predicate FreshEntities(base: seq<LogRecord>, grown: seq<LogRecord>, guildPet: Option<PetRef>, playerPet: Option<PetRef>) {
    && |base| <= |grown|
    && forall k :: |base| <= k < |grown| ==>
         grown[k] !in grown[..k] && (IsEntityOf(grown[k], guildPet) || IsEntityOf(grown[k], playerPet))
  }

  /** Finding or creating the entity of one of the two pets keeps the added records fresh. */
  lemma FindOrCreateFresh(base: seq<LogRecord>, current: seq<LogRecord>, pet: PetRef,
                          guildPet: Option<PetRef>, playerPet: Option<PetRef>)
    requires FreshEntities(base, current, guildPet, playerPet)
    requires guildPet == Some(pet) || playerPet == Some(pet)
    ensures FreshEntities(base, FindOrCreatePetEntity(current, pet.gameId, pet.creationMs).log, guildPet, playerPet)
  {
    var record := PetEntity(pet.gameId, SecondsOf(pet.creationMs));
    var grown := FindOrCreatePetEntity(current, pet.gameId, pet.creationMs).log;
    if record !in current {
      forall k | |base| <= k < |grown|
        ensures grown[k] !in grown[..k] && (IsEntityOf(grown[k], guildPet) || IsEntityOf(grown[k], playerPet))
      {
        if k < |current| {
          assert grown[..k] == current[..k];
        } else {
          assert grown[..k] == current;
        }
      }
    }
  }

  /** Log a pet transfer: the guild pet's entity is found or created first, then the player pet's. */
  function LogPetTransfer(log: seq<LogRecord>, guildPet: Option<PetRef>, playerPet: Option<PetRef>, date: int): (r: seq<LogRecord>)
    ensures |log| < |r| <= |log| + 3 && r[..|log|] == log
    ensures FreshEntities(log, r[..|r| - 1], guildPet, playerPet)
    ensures r[|r| - 1].PetTransfer? && r[|r| - 1].date == date
    ensures r[|r| - 1].guildPetId.Some? <==> guildPet.Some?
    ensures r[|r| - 1].playerPetId.Some? <==> playerPet.Some?
    ensures r[|r| - 1].playerPetId.Some? ==> r[|r| - 1].playerPetId.value < |r| - 1
    ensures r[|r| - 1].guildPetId.Some? ==> r[|r| - 1].guildPetId.value < |r| - 1
    ensures playerPet.Some? ==>
      r[r[|r| - 1].playerPetId.value] == PetEntity(playerPet.value.gameId, SecondsOf(playerPet.value.creationMs))
    ensures guildPet.Some? ==>
      r[r[|r| - 1].guildPetId.value] == PetEntity(guildPet.value.gameId, SecondsOf(guildPet.value.creationMs))
  {
    var first := EntityStep(log, log, guildPet, guildPet, playerPet);
    var second := EntityStep(log, first.log, playerPet, guildPet, playerPet);
    var r := second.log + [PetTransfer(second.id, first.id, date)];
    assert r[..|log|] == log;
    assert r[..|r| - 1] == second.log;
    r
  }

  /** The log after finding or creating an optional pet's entity, and the entity's id if there is a pet. */
  datatype Step = Step(log: seq<LogRecord>, id: Option<nat>)

  /**
   * Find or create the entity of `pet`, one of the two pets of a transfer, when
   * there is one; the records added since `base` stay fresh entities of the two pets.
   */
  function EntityStep(base: seq<LogRecord>, current: seq<LogRecord>, pet: Option<PetRef>,
                      guildPet: Option<PetRef>, playerPet: Option<PetRef>): (r: Step)
    requires FreshEntities(base, current, guildPet, playerPet)
    requires pet == guildPet || pet == playerPet
    ensures FreshEntities(base, r.log, guildPet, playerPet)
    ensures |current| <= |r.log| <= |current| + 1 && r.log[..|current|] == current
    ensures r.id.Some? <==> pet.Some?
    ensures pet.Some? ==> r.id.value < |r.log| && r.log[r.id.value] == PetEntity(pet.value.gameId, SecondsOf(pet.value.creationMs))
  {
    match pet
    case None => Step(current, None)
    case Some(p) =>
      FindOrCreateFresh(base, current, p, guildPet, playerPet);
      var found := FindOrCreatePetEntity(current, p.gameId, p.creationMs);
      assert found.log[..|current|] == current;
      Step(found.log, Some(found.id))
  }

  /** A transfer naming no pet writes the transfer record alone. */
  lemma LogPetTransferNoPets(log: seq<LogRecord>, date: int)
    ensures LogPetTransfer(log, None, None, date) == log + [PetTransfer(None, None, date)]
  {
  }
}

=== FILE: maps.dfy ===
/**
 * Travel bookkeeping of a player (`Maps`): whether they travel, how long they
 * have travelled, shifting the clock forward, starting and stopping a travel,
 * choosing the next maps, and the progress bar drawn between two map emotes.
 * Dates are integers in milliseconds since the epoch; the clock (`now`) and the
 * map database answers are parameters.
 */
module Maps {
  import opened Wrappers

  /** Milliseconds in a minute (minutesToMilliseconds). */
  const MinuteMs: int := 60000

  /** Number of squares between two small events in the travel path string. */
  const PathSquareCount: nat := 4

  /** A travel is drawn as complete after two hours. */
  const FullTravelMs: int := 2 * 60 * 60 * 1000

  /** The square drawn on the cells the walker is not on. */
  const Square: string := "■"

  /** The marker drawn for a player walking without an effect. */
  const Walker: string := "🧍"

  /** The player's current effect: none (the smiley) or an alteration such as being occupied. */
  datatype Effect = Smiley | Altered(tag: string)

  /**
   * The travel fields of a player. A map id of 0 means unset: the source tests ids
   * for truthiness, so `null` and 0 behave alike. A start date of 0 (the epoch)
   * means the player is not travelling. `effectDuration` is in minutes.
   */
  datatype Traveller = Traveller(
    mapId: nat,
    previousMapId: nat,
    startTravelDate: int,
    effectEndDate: int,
    effectDuration: int,
    effect: Effect)

  predicate IsTravelling(t: Traveller) {
    t.startTravelDate != 0
  }

  /**
   * Milliseconds travelled so far. While an effect is still running (the player's
   * `currentEffectFinished()` is passed in) the time spent under it does not count,
   * so the travel clock stands still at the effect's end date.
   */
  function TravellingTime(t: Traveller, now: int, effectFinished: bool): (r: int)
    ensures !IsTravelling(t) ==> r == 0
    ensures IsTravelling(t) && effectFinished ==> r == now - t.startTravelDate
    ensures IsTravelling(t) && !effectFinished ==> r == t.effectEndDate - t.startTravelDate
  {
    if !IsTravelling(t) then 0
    else
      var malus := if effectFinished then 0 else now - t.effectEndDate;
      now - t.startTravelDate - malus
  }

  /** The larger of two integers. */
  function Max(a: int, b: int): int {
    if a < b then b else a
  }

  /**
   * Advance the player's clock by `minutes`: the travel start moves back by that
   * many milliseconds and a running effect (`remaining`, the player's
   * `effectRemainingTime()`, is not 0) ends that much sooner, but never before `now`.
   */
  function AdvanceTime(t: Traveller, minutes: int, now: int, remaining: int): (r: Traveller)
    ensures r.startTravelDate == t.startTravelDate - minutes * MinuteMs
    ensures remaining == 0 ==> r.effectEndDate == t.effectEndDate
    ensures remaining != 0 ==> r.effectEndDate == Max(now, t.effectEndDate - minutes * MinuteMs)
    ensures remaining != 0 ==> r.effectEndDate >= now
    ensures remaining != 0 && minutes >= 0 && t.effectEndDate >= now ==> r.effectEndDate <= t.effectEndDate
    ensures r == t.(startTravelDate := r.startTravelDate, effectEndDate := r.effectEndDate)
  {
    var ms := minutes * MinuteMs;
    var end :=
      if remaining != 0 then
        (if ms >= t.effectEndDate - now then now else t.effectEndDate - ms)
      else t.effectEndDate;
    t.(effectEndDate := end, startTravelDate := t.startTravelDate - ms)
  }

  /**
   * Advancing by `a` then by `b` minutes is advancing by `a + b` minutes, provided
   * the second call still sees the effect running unless the first one ended it.
   */
  lemma AdvanceTimeAdds(t: Traveller, a: int, b: int, now: int, remaining1: int, remaining2: int)
    requires a >= 0 && b >= 0 && remaining1 != 0
    requires remaining2 == 0 ==> AdvanceTime(t, a, now, remaining1).effectEndDate == now
    ensures AdvanceTime(AdvanceTime(t, a, now, remaining1), b, now, remaining2) == AdvanceTime(t, a + b, now, remaining1)
  {
    assert (a + b) * MinuteMs == a * MinuteMs + b * MinuteMs;
  }

  /** The result of starting a travel: the new fields and whether the effect is applied again afterwards. */
  datatype TravelStart = TravelStart(traveller: Traveller, reapplyEffect: bool)

  /**
   * Start travelling to `mapId` at `time`: the current map becomes the previous one
   * and the start is pushed back by the effect's duration. When the player has an
   * effect other than the smiley, the source then applies that effect again.
   */
  function StartTravel(t: Traveller, mapId: nat, time: int): (r: TravelStart)
    ensures r.traveller.previousMapId == t.mapId && r.traveller.mapId == mapId
    ensures r.traveller.startTravelDate - time == t.effectDuration * MinuteMs
    ensures r.reapplyEffect <==> t.effect != Smiley
    ensures r.traveller.effectEndDate == t.effectEndDate && r.traveller.effectDuration == t.effectDuration
    ensures r.traveller.effect == t.effect
  {
    TravelStart(
      t.(previousMapId := t.mapId, mapId := mapId, startTravelDate := time + t.effectDuration * MinuteMs),
      t.effect != Smiley)
  }

  /**
   * A travel started at a positive time with a non-negative effect duration is
   * under way. Its clock counts from the given time plus that duration: up to
   * now once the effect is over, up to the effect's end while it runs.
   */
  lemma StartTravelTravels(t: Traveller, mapId: nat, time: int, now: int)
    requires time > 0 && t.effectDuration >= 0
    ensures IsTravelling(StartTravel(t, mapId, time).traveller)
    ensures TravellingTime(StartTravel(t, mapId, time).traveller, now, true) == now - time - t.effectDuration * MinuteMs
    ensures TravellingTime(StartTravel(t, mapId, time).traveller, now, false)
         == t.effectEndDate - time - t.effectDuration * MinuteMs
  {
    assert t.effectDuration * MinuteMs >= 0;
  }

  /** Stop travelling: the start date goes back to the epoch. */
  function StopTravel(t: Traveller): (r: Traveller)
    ensures !IsTravelling(r)
    ensures r.mapId == t.mapId && r.previousMapId == t.previousMapId
    ensures r.effectEndDate == t.effectEndDate && r.effectDuration == t.effectDuration && r.effect == t.effect
  {
    t.(startTravelDate := 0)
  }

  /** A stopped player has travelled for no time at all, whatever the clock says. */
  lemma StoppedTravelTakesNoTime(t: Traveller, now: int, effectFinished: bool)
    ensures TravellingTime(StopTravel(t), now, effectFinished) == 0
  {
  }

  /** While an effect runs, the travelled time does not depend on the clock. */
  lemma TravelClockStopsDuringEffect(t: Traveller, now1: int, now2: int)
    ensures TravellingTime(t, now1, false) == TravellingTime(t, now2, false)
  {
  }

  /** The player's (possibly placed) position and the maps they may go to next. */
  datatype NextMaps = NextMaps(traveller: Traveller, maps: seq<nat>)

  /**
   * The maps a player can go to next. A player with no map is first placed on
   * `randomMapId` (both current and previous map). The answer is the list of maps
   * connected to the current one (`connected(mapId, previousMapId)`, the database
   * query, which leaves out the previous map when another one is available); when
   * that list is empty and a previous map is set, the player may go back to it.
   */
  function NextPlayerAvailableMaps(t: Traveller, randomMapId: nat, connected: (nat, nat) -> seq<nat>): (r: NextMaps)
    ensures t.mapId != 0 ==> r.traveller == t
    ensures t.mapId == 0 ==> r.traveller == t.(mapId := randomMapId, previousMapId := randomMapId)
    ensures var ids := connected(r.traveller.mapId, r.traveller.previousMapId);
      && (|ids| > 0 ==> r.maps == ids)
      && (|ids| == 0 && r.traveller.previousMapId != 0 ==> r.maps == [r.traveller.previousMapId])
      && (|ids| == 0 && r.traveller.previousMapId == 0 ==> r.maps == [])
  {
    var placed := if t.mapId == 0 then t.(previousMapId := randomMapId, mapId := randomMapId) else t;
    var ids := connected(placed.mapId, placed.previousMapId);
    var maps := if |ids| == 0 && placed.previousMapId != 0 then ids + [placed.previousMapId] else ids;
    NextMaps(placed, maps)
  }

  /** A player who has a previous map is never left without a destination. */
  lemma NeverStranded(t: Traveller, randomMapId: nat, connected: (nat, nat) -> seq<nat>)
    requires t.previousMapId != 0 && t.mapId != 0
    ensures |NextPlayerAvailableMaps(t, randomMapId, connected).maps| > 0
  {
  }

  /** The travelled fraction of the full two hours, clamped to at most 1. */
  function Percentage(time: int): (p: real)
    ensures p <= 1.0
    ensures time >= FullTravelMs ==> p == 1.0
    ensures time <= FullTravelMs ==> p * FullTravelMs as real == time as real
    ensures (time >= 0 <==> p >= 0.0)
  {
    var p := time as real / FullTravelMs as real;
    if p > 1.0 then 1.0 else p
  }

  /** The share of the bar each of the `smallEvents + 1` segments covers. */
  function Span(smallEvents: nat): (span: real)
    ensures span > 0.0 && span * (smallEvents + 1) as real == 1.0
  {
    1.0 / (smallEvents + 1) as real
  }

  /** The percentage `p` lies past the end of segment `i`. */
  predicate PastSegment(p: real, smallEvents: nat, i: int) {
    p > (i + 1) as real * Span(smallEvents)
  }

  /**
   * The first segment `i` from `from` on whose end the percentage does not pass,
   * or None when no segment up to `smallEvents` qualifies.
   */
  function FirstSegment(p: real, smallEvents: nat, from: nat): (r: Option<nat>)
    ensures r.Some? ==> from <= r.value <= smallEvents && p <= (r.value + 1) as real * Span(smallEvents)
    ensures r.Some? ==> forall i :: from <= i < r.value ==> PastSegment(p, smallEvents, i)
    ensures r.None? ==> forall i :: from <= i <= smallEvents ==> PastSegment(p, smallEvents, i)
    decreases smallEvents + 1 - from
  {
    if from > smallEvents then None
    else if p <= (from + 1) as real * Span(smallEvents) then Some(from)
    else FirstSegment(p, smallEvents, from + 1)
  }

  /**
   * The position on the bar, before rounding down, of a walker who has covered
   * the fraction `p` of the travel. Positions count the gaps between segments
   * too: segment `i` covers positions `i * 5` to `i * 5 + 3`, and position
   * `i * 5 + 4` is the gap (no cell), where the walker sits exactly at a
   * segment's end.
   */
  function BarPosition(p: real, smallEvents: nat): real {
    var span := Span(smallEvents);
    match FirstSegment(p, smallEvents, 0)
    case None => 0.0
    case Some(i) => (i * (PathSquareCount + 1)) as real + (PathSquareCount as real) * (p - i as real * span) / span
  }

  /** The walker's position on the bar after `time` milliseconds of travel (`Math.floor` of its exact position). */
  function WalkerIndex(time: int, smallEvents: nat): int {
    BarPosition(Percentage(time), smallEvents).Floor
  }

  /** Measuring in spans and converting back to segments gives back the count. */
  lemma UnitScale(a: real, smallEvents: nat)
    ensures a * Span(smallEvents) * (smallEvents + 1) as real == a
  {
    var span := Span(smallEvents);
    var n1 := (smallEvents + 1) as real;
    assert span * n1 == 1.0;
    calc {
      a * span * n1;
      == a * (span * n1);
      == a * 1.0;
    }
  }

  /** Dividing by the span is multiplying by the number of segments. */
  lemma ScaledOffset(p: real, smallEvents: nat, i: int)
    ensures (PathSquareCount as real) * (p - i as real * Span(smallEvents)) / Span(smallEvents)
         == (PathSquareCount as real) * (p * (smallEvents + 1) as real - i as real)
  {
    var span := Span(smallEvents);
    var n1 := (smallEvents + 1) as real;
    var c := PathSquareCount as real;
    assert span == 1.0 / n1;
    assert c * (p - i as real * span) / span == c * (p - i as real * span) * n1;
    UnitScale(i as real, smallEvents);
  }

  /** Scaling an inequality by a positive factor keeps it. */
  lemma ScaleLe(a: real, b: real, c: real)
    requires a <= b && c > 0.0
    ensures a * c <= b * c
  {
  }

  /** The travelled fraction `p` measured in segments. */
  function Progress(p: real, smallEvents: nat): real {
    p * (smallEvents + 1) as real
  }

  /** Measured in segments, a larger fraction is at least as much progress. */
  lemma ProgressLe(p1: real, p2: real, smallEvents: nat)
    requires p1 <= p2
    ensures Progress(p1, smallEvents) <= Progress(p2, smallEvents)
  {
    ScaleLe(p1, p2, (smallEvents + 1) as real);
  }

  /** A percentage of at most 1 always falls in some segment. */
  lemma SegmentExists(p: real, smallEvents: nat)
    requires p <= 1.0
    ensures FirstSegment(p, smallEvents, 0).Some?
  {
    if FirstSegment(p, smallEvents, 0).None? {
      assert PastSegment(p, smallEvents, smallEvents);
      UnitScale(1.0, smallEvents);
    }
  }

  /** A fraction below `k` spans is less than `k` segments of progress. */
  lemma ProgressAtMost(p: real, k: real, smallEvents: nat)
    requires p <= k * Span(smallEvents)
    ensures Progress(p, smallEvents) <= k
  {
    ScaleLe(p, k * Span(smallEvents), (smallEvents + 1) as real);
    UnitScale(k, smallEvents);
  }

  /** A fraction past `k` spans is more than `k` segments of progress. */
  lemma ProgressAbove(p: real, k: real, smallEvents: nat)
    requires p > k * Span(smallEvents)
    ensures Progress(p, smallEvents) > k
  {
    var n1 := (smallEvents + 1) as real;
    assert p * n1 > k * Span(smallEvents) * n1;
    UnitScale(k, smallEvents);
  }

  /** In units of segments, the progress in the chosen segment `i` lies in `(i, i + 1]` (at most 1 in the first one). */
  lemma SegmentBounds(p: real, smallEvents: nat, i: nat)
    requires FirstSegment(p, smallEvents, 0) == Some(i)
    ensures Progress(p, smallEvents) <= (i + 1) as real
    ensures i > 0 ==> Progress(p, smallEvents) > i as real
  {
    ProgressAtMost(p, (i + 1) as real, smallEvents);
    if i > 0 {
      assert PastSegment(p, smallEvents, i - 1);
      ProgressAbove(p, i as real, smallEvents);
    }
  }

  /**
   * A fraction of at most 1 falls in a segment `i`; measured in segments, the
   * progress `q` lies in `(i, i + 1]` (at most 1 in the first one), and the walker
   * stands at `5 i + 4 (q - i)`.
   */
  lemma PositionInSegment(p: real, smallEvents: nat) returns (i: nat, q: real)
    requires p <= 1.0
    ensures FirstSegment(p, smallEvents, 0) == Some(i)
    ensures q == Progress(p, smallEvents)
    ensures q <= (i + 1) as real && (i > 0 ==> q > i as real)
    ensures p >= 0.0 ==> q >= 0.0
    ensures BarPosition(p, smallEvents) == PositionIn(i, q)
  {
    SegmentExists(p, smallEvents);
    i := FirstSegment(p, smallEvents, 0).value;
    q := p * (smallEvents + 1) as real;
    SegmentBounds(p, smallEvents, i);
    ScaledOffset(p, smallEvents, i);
  }

  /** A travel that has not begun in the past keeps the walker on the bar: from its first position to the last gap. */
  lemma WalkerOnBar(time: int, smallEvents: nat)
    requires time >= 0
    ensures 0 <= WalkerIndex(time, smallEvents) <= smallEvents * (PathSquareCount + 1) + PathSquareCount
  {
    var p := Percentage(time);
    var i, q := PositionInSegment(p, smallEvents);
    assert q >= 0.0;
    assert i <= smallEvents;
  }

  /** At the start of a travel the walker stands on the first cell. */
  lemma WalkerStartsOnFirstCell(smallEvents: nat)
    ensures WalkerIndex(0, smallEvents) == 0
  {
    var i, q := PositionInSegment(Percentage(0), smallEvents);
  }

  /** Once the two hours are over the walker sits in the last gap, and no cell shows it. */
  lemma WalkerHiddenOnArrival(time: int, smallEvents: nat, marker: string)
    requires time >= FullTravelMs
    ensures WalkerIndex(time, smallEvents) == smallEvents * (PathSquareCount + 1) + PathSquareCount
    ensures forall cell <- PathCells(WalkerIndex(time, smallEvents), smallEvents, marker) :: cell == Square
  {
    var i, q := PositionInSegment(Percentage(time), smallEvents);
    assert q == (smallEvents + 1) as real;
    assert i == smallEvents;
    var index := WalkerIndex(time, smallEvents);
    var cells := PathCells(index, smallEvents, marker);
    forall k | 0 <= k < |cells|
      ensures cells[k] == Square
    {
      assert CellPosition(k) != index;
    }
  }

  /** The bar position `5 i + 4 (q - i)` of progress `q` (in segments) within segment `i`. */
  function PositionIn(i: nat, q: real): real {
    (i * (PathSquareCount + 1)) as real + (PathSquareCount as real) * (q - i as real)
  }

  /** Within a segment, or moving on to a later one, the bar position does not decrease. */
  lemma PositionInMonotone(i1: nat, q1: real, i2: nat, q2: real)
    requires q1 <= q2
    requires q1 <= (i1 + 1) as real && (i1 > 0 ==> q1 > i1 as real)
    requires q2 <= (i2 + 1) as real && (i2 > 0 ==> q2 > i2 as real)
    ensures PositionIn(i1, q1) <= PositionIn(i2, q2)
  {
    assert PathSquareCount as real == 4.0;
    if i1 < i2 {
      assert q1 <= (i1 + 1) as real <= i2 as real;
    } else if i1 > i2 {
      assert false;
    }
  }

  /** A larger travelled fraction never puts the walker further back. */
  lemma PositionMonotone(p1: real, p2: real, smallEvents: nat)
    requires p1 <= p2 <= 1.0
    ensures BarPosition(p1, smallEvents) <= BarPosition(p2, smallEvents)
  {
    var i1, q1 := PositionInSegment(p1, smallEvents);
    var i2, q2 := PositionInSegment(p2, smallEvents);
    ProgressLe(p1, p2, smallEvents);
    PositionInMonotone(i1, q1, i2, q2);
  }

  /** The travelled fraction grows with the travelled time. */
  lemma PercentageMonotone(time1: int, time2: int)
    requires time1 <= time2
    ensures Percentage(time1) <= Percentage(time2)
  {
    if time2 <= FullTravelMs {
      ScaleLe(time1 as real, time2 as real, 1.0 / FullTravelMs as real);
    }
  }

  /** The walker never moves back as the travelled time grows. */
  lemma WalkerMonotone(time1: int, time2: int, smallEvents: nat)
    requires time1 <= time2
    ensures WalkerIndex(time1, smallEvents) <= WalkerIndex(time2, smallEvents)
  {
    PercentageMonotone(time1, time2);
    PositionMonotone(Percentage(time1), Percentage(time2), smallEvents);
  }

  /** The bar position of the `k`-th drawn cell: cells skip the gap after every segment. */
  function CellPosition(k: int): int {
    (k / PathSquareCount) * (PathSquareCount + 1) + k % PathSquareCount
  }

  /** Distinct cells sit at distinct positions, so at most one cell shows the walker. */
  lemma CellPositionInjective(k1: int, k2: int)
    requires k1 >= 0 && k2 >= 0 && CellPosition(k1) == CellPosition(k2)
    ensures k1 == k2
  {
  }

  /** The cells of the bar, left to right: the marker where the walker stands, squares elsewhere. */
  function PathCells(index: int, smallEvents: nat, marker: string): (cells: seq<string>)
    ensures |cells| == (smallEvents + 1) * PathSquareCount
  {
    seq((smallEvents + 1) * PathSquareCount, k => if CellPosition(k) == index then marker else Square)
  }

  /** The concatenation of a sequence of strings. */
  function Concat(parts: seq<string>): string {
    if |parts| == 0 then "" else Concat(parts[..|parts| - 1]) + parts[|parts| - 1]
  }

  /** A bar shows the marker in at most one cell. */
  lemma {:induction false} AtMostOneMarker(index: int, smallEvents: nat, marker: string, k1: nat, k2: nat)
    requires marker != Square
    requires k1 < |PathCells(index, smallEvents, marker)| && k2 < |PathCells(index, smallEvents, marker)|
    requires PathCells(index, smallEvents, marker)[k1] == marker && PathCells(index, smallEvents, marker)[k2] == marker
    ensures k1 == k2
  {
    CellPositionInjective(k1, k2);
  }

  /**
   * Draw the travel bar: the previous map's emote, the cells, the next map's emote.
   * Without an effect the bar shows the walker at the travelled time; with one it
   * shows the effect's marker at the effect's end.
   */
  method GenerateTravelPathString(
    t: Traveller, now: int, effectFinished: bool, smallEvents: nat,
    effectMarker: Option<string>, previousEmote: string, nextEmote: string)
    returns (s: string)
    ensures var time := if effectMarker.Some? then t.effectEndDate - t.startTravelDate
                        else TravellingTime(t, now, effectFinished);
      s == previousEmote + " " + Concat(PathCells(WalkerIndex(time, smallEvents), smallEvents, effectMarker.GetOr(Walker)))
           + " " + nextEmote
  {
    var time := if effectMarker.Some? then t.effectEndDate - t.startTravelDate else TravellingTime(t, now, effectFinished);
    var index := WalkerIndex(time, smallEvents);
    var drawn := DrawCells(index, smallEvents, effectMarker.GetOr(Walker));
    s := previousEmote + " " + drawn + " " + nextEmote;
  }

  /** Cell `j` of segment `i` sits at bar position `5 i + j`. */
  lemma CellPositionOf(i: nat, j: nat)
    requires j < PathSquareCount
    ensures CellPosition(i * PathSquareCount + j) == i * (PathSquareCount + 1) + j
  {
    var k := i * PathSquareCount + j;
    assert k / PathSquareCount == i && k % PathSquareCount == j;
  }

  /** Drawing one more cell extends the concatenation by that cell. */
  lemma ConcatStep(cells: seq<string>, k: nat)
    requires k < |cells|
    ensures Concat(cells[..k + 1]) == Concat(cells[..k]) + cells[k]
  {
    assert cells[..k + 1][..k] == cells[..k];
  }

  /** Cell `j` of segment `i` lies before the end of a bar of `n` segments. */
  lemma CellInside(i: nat, j: nat, n: nat)
    requires i < n && j < PathSquareCount
    ensures i * PathSquareCount + j < n * PathSquareCount
  {
    calc {
      i * PathSquareCount + j;
    <
      i * PathSquareCount + PathSquareCount;
    ==
      (i + 1) * PathSquareCount;
    <=
      n * PathSquareCount;
    }
  }

  /** The cells of the bar, drawn segment by segment as the source's outer loop does. */
  method DrawCells(index: int, smallEvents: nat, marker: string) returns (drawn: string)
    ensures drawn == Concat(PathCells(index, smallEvents, marker))
  {
    ghost var cells := PathCells(index, smallEvents, marker);
    drawn := "";
    var i := 0;
    while i < smallEvents + 1
      invariant 0 <= i <= smallEvents + 1
      invariant drawn == Concat(cells[..i * PathSquareCount])
    {
      drawn := DrawSegment(index, smallEvents, marker, i, drawn);
      i := i + 1;
    }
    assert cells[..(smallEvents + 1) * PathSquareCount] == cells;
  }

  /** Appends the cells of segment `i` to the `drawn` cells of the segments before it. */
  method DrawSegment(index: int, smallEvents: nat, marker: string, i: nat, drawn: string) returns (r: string)
    requires i < smallEvents + 1
    requires drawn == Concat(PathCells(index, smallEvents, marker)[..i * PathSquareCount])
    ensures r == Concat(PathCells(index, smallEvents, marker)[..(i + 1) * PathSquareCount])
  {
    ghost var cells := PathCells(index, smallEvents, marker);
    ghost var base := i * PathSquareCount;
    var start := i * (PathSquareCount + 1);
    r := drawn;
    var j := 0;
    while j < PathSquareCount
      invariant 0 <= j <= PathSquareCount
      invariant r == Concat(cells[..base + j])
    {
      SegmentCell(index, smallEvents, marker, i, j);
      ConcatStep(cells, base + j);
      r := r + if start + j == index then marker else Square;
      j := j + 1;
    }
    SegmentEnd(i);
  }

  /** Cell `j` of segment `i` is in the bar, and shows the marker exactly when the source's position test holds. */
  lemma SegmentCell(index: int, smallEvents: nat, marker: string, i: nat, j: nat)
    requires i < smallEvents + 1 && j < PathSquareCount
    ensures i * PathSquareCount + j < |PathCells(index, smallEvents, marker)|
    ensures PathCells(index, smallEvents, marker)[i * PathSquareCount + j]
         == if i * (PathSquareCount + 1) + j == index then marker else Square
  {
    CellPositionOf(i, j);
    CellInside(i, j, smallEvents + 1);
  }

  /** The segment after segment `i` starts right after its last cell. */
  lemma SegmentEnd(i: nat)
    ensures i * PathSquareCount + PathSquareCount == (i + 1) * PathSquareCount
  {
  }
}

=== FILE: pet_transfer.dfy ===
/**
 * The `/petTransfer` command: a player deposits their pet in the guild shelter,
 * or exchanges it with (or, with an empty pet slot, takes out) the shelter pet
 * at a 1-based position. The player's pet slot and the guild's shelter list are
 * plain values here; reading and saving them is the caller's business.
 */
module PetTransfer {
  import opened Wrappers

  /** A pet entity: its game id and whether it is feisty (a feisty pet refuses to be handed over). */
  datatype Pet = Pet(id: nat, feisty: bool)

  /** The player's single pet slot and the guild shelter, in the order the guild lists its pets. */
  datatype Holding = Holding(playerPet: Option<Pet>, shelter: seq<Pet>)

  /** The error replies of the command, one per message it can answer with. */
  datatype TransferError =
    | Blocked
    | NotInAGuild
    | NoPetToTransfer
    | IsFeisty
    | NoSlotAvailable
    | NoPetInShelter
    | WrongPetNumberSingle
    | WrongPetNumberBetween(max: nat)

  /** One pet transfer log row: the pet that went to the shelter and the pet that went to the player. */
  datatype TransferRecord = TransferRecord(guildPet: Option<Pet>, playerPet: Option<Pet>)

  /** The outcome of a command: the holding afterwards, plus the transfer it logged or the error it replied. */
  datatype Reply =
    | Done(holding: Holding, record: TransferRecord)
    | Rejected(holding: Holding, error: TransferError)

  /** Every pet the player and the guild hold together. */
  function Pets(h: Holding): multiset<Pet> {
    ToMultiset(h.playerPet) + multiset(h.shelter)
  }

  /** The shelter holds no more pets than it has slots. */
  predicate WithinCapacity(h: Holding, slots: nat) {
    |h.shelter| <= slots
  }

  /** The pet a holding's player could hand over: present and not feisty. */
  predicate CanHandOver(h: Holding) {
    h.playerPet.Some? && !h.playerPet.value.feisty
  }

  /**
   * Deposit the player's pet in the shelter. The checks run in a fixed order:
   * no pet, then a feisty pet, then a full shelter (`slots` is the shelter capacity).
   */
  function Deposit(h: Holding, slots: nat): (r: Reply)
    ensures h.playerPet.None? ==> r == Rejected(h, NoPetToTransfer)
    ensures h.playerPet.Some? && h.playerPet.value.feisty ==> r == Rejected(h, IsFeisty)
    ensures CanHandOver(h) && |h.shelter| >= slots ==> r == Rejected(h, NoSlotAvailable)
    ensures r.Rejected? ==> r.holding == h
    ensures r.Done? <==> CanHandOver(h) && |h.shelter| < slots
    ensures r.Done? ==> r.holding.playerPet.None?
    ensures r.Done? ==> |r.holding.shelter| == |h.shelter| + 1 <= slots
    ensures r.Done? ==> r.holding.shelter[..|h.shelter|] == h.shelter
    ensures r.Done? ==> Pets(r.holding) == Pets(h)
    ensures r.Done? ==> r.record == TransferRecord(h.playerPet, None)
  {
    if h.playerPet.None? then Rejected(h, NoPetToTransfer)
    else if h.playerPet.value.feisty then Rejected(h, IsFeisty)
    else if |h.shelter| >= slots then Rejected(h, NoSlotAvailable)
    else
      var pet := h.playerPet.value;
      assert (h.shelter + [pet])[..|h.shelter|] == h.shelter;
      Done(Holding(None, h.shelter + [pet]), TransferRecord(Some(pet), None))
  }

  /** Replacing one element of a sequence swaps one copy in its multiset. */
  lemma UpdatePets(s: seq<Pet>, i: nat, p: Pet)
    requires i < |s|
    ensures multiset(s[i := p]) + multiset{s[i]} == multiset(s) + multiset{p}
  {
    assert s == s[..i] + [s[i]] + s[i+1..];
    assert s[i := p] == s[..i] + [p] + s[i+1..];
  }

  /** Removing one element of a sequence removes one copy from its multiset. */
  lemma RemovePets(s: seq<Pet>, i: nat)
    requires i < |s|
    ensures multiset(s[..i] + s[i+1..]) + multiset{s[i]} == multiset(s)
  {
    assert s == s[..i] + [s[i]] + s[i+1..];
  }

  /**
   * Exchange the player's pet with the shelter pet at the 1-based `position`.
   * An empty shelter and a position past its end are rejected first; a feisty
   * player pet blocks the exchange; with an empty pet slot the shelter pet is
   * taken out of the shelter and given to the player.
   */
  function Switch(h: Holding, position: int): (r: Reply)
    requires position >= 1
    ensures |h.shelter| == 0 ==> r == Rejected(h, NoPetInShelter)
    ensures 0 < |h.shelter| < position ==>
      r == Rejected(h, if |h.shelter| == 1 then WrongPetNumberSingle else WrongPetNumberBetween(|h.shelter|))
    ensures position <= |h.shelter| && h.playerPet.Some? && h.playerPet.value.feisty ==> r == Rejected(h, IsFeisty)
    ensures r.Rejected? ==> r.holding == h
    ensures r.Done? <==> position <= |h.shelter| && (h.playerPet.None? || !h.playerPet.value.feisty)
    ensures r.Done? ==> r.holding.playerPet == Some(h.shelter[position - 1])
    ensures r.Done? && h.playerPet.Some? ==>
      |r.holding.shelter| == |h.shelter|
      && r.holding.shelter[position - 1] == h.playerPet.value
      && (forall k :: 0 <= k < |h.shelter| && k != position - 1 ==> r.holding.shelter[k] == h.shelter[k])
    ensures r.Done? && h.playerPet.None? ==>
      |r.holding.shelter| == |h.shelter| - 1
      && (forall k :: 0 <= k < position - 1 ==> r.holding.shelter[k] == h.shelter[k])
      && (forall k :: position - 1 <= k < |r.holding.shelter| ==> r.holding.shelter[k] == h.shelter[k + 1])
    ensures r.Done? ==> Pets(r.holding) == Pets(h)
    ensures r.Done? ==> r.record == TransferRecord(h.playerPet, Some(h.shelter[position - 1]))
  {
    var count := |h.shelter|;
    if count == 0 then Rejected(h, NoPetInShelter)
    else if position > count then
      Rejected(h, if count == 1 then WrongPetNumberSingle else WrongPetNumberBetween(count))
    else
      match h.playerPet
      case Some(pet) => if pet.feisty then Rejected(h, IsFeisty) else Exchange(h, position - 1, pet)
      case None => TakeOut(h, position - 1)
  }

  /** The player's pet takes the place of the shelter pet at index `i`, which goes to the player. */
  function Exchange(h: Holding, i: nat, pet: Pet): (r: Reply)
    requires i < |h.shelter| && h.playerPet == Some(pet)
    ensures r.Done? && r.holding.playerPet == Some(h.shelter[i])
    ensures |r.holding.shelter| == |h.shelter| && r.holding.shelter[i] == pet
    ensures forall k :: 0 <= k < |h.shelter| && k != i ==> r.holding.shelter[k] == h.shelter[k]
    ensures Pets(r.holding) == Pets(h)
    ensures r.record == TransferRecord(Some(pet), Some(h.shelter[i]))
  {
    UpdatePets(h.shelter, i, pet);
    Done(Holding(Some(h.shelter[i]), h.shelter[i := pet]), TransferRecord(Some(pet), Some(h.shelter[i])))
  }

  /** The shelter pet at index `i` leaves the shelter for the player's empty pet slot. */
  function TakeOut(h: Holding, i: nat): (r: Reply)
    requires i < |h.shelter| && h.playerPet.None?
    ensures r.Done? && r.holding.playerPet == Some(h.shelter[i])
    ensures |r.holding.shelter| == |h.shelter| - 1
    ensures forall k :: 0 <= k < i ==> r.holding.shelter[k] == h.shelter[k]
    ensures forall k :: i <= k < |r.holding.shelter| ==> r.holding.shelter[k] == h.shelter[k + 1]
    ensures Pets(r.holding) == Pets(h)
    ensures r.record == TransferRecord(None, Some(h.shelter[i]))
  {
    RemovePets(h.shelter, i);
    Done(Holding(Some(h.shelter[i]), h.shelter[..i] + h.shelter[i+1..]), TransferRecord(None, Some(h.shelter[i])))
  }

  /**
   * The whole command. A blocked player and a player outside any guild are turned
   * away before any transfer logic; without a position option the command deposits,
   * with one it switches. The option is declared with a minimum of 1.
   */
  function ExecuteCommand(blocked: bool, inGuild: bool, position: Option<int>, h: Holding, slots: nat): (r: Reply)
    requires position.Some? ==> position.value >= 1
    ensures blocked ==> r == Rejected(h, Blocked)
    ensures !blocked && !inGuild ==> r == Rejected(h, NotInAGuild)
    ensures !blocked && inGuild && position.None? ==> r == Deposit(h, slots)
    ensures !blocked && inGuild && position.Some? ==> r == Switch(h, position.value)
    ensures r.Rejected? ==> r.holding == h
    ensures r.Done? ==> !blocked && inGuild
    ensures r.Done? ==> Pets(r.holding) == Pets(h)
    ensures WithinCapacity(h, slots) ==> WithinCapacity(r.holding, slots)
    ensures r.Done? && position.None? ==> r.holding.playerPet.None? && |r.holding.shelter| == |h.shelter| + 1
    ensures r.Done? && position.Some? ==> position.value <= |h.shelter|
    ensures r.Done? && position.Some? ==> r.holding.playerPet == Some(h.shelter[position.value - 1])
  {
    if blocked then Rejected(h, Blocked)
    else if !inGuild then Rejected(h, NotInAGuild)
    else if position.None? then Deposit(h, slots)
    else Switch(h, position.value)
  }

  /** Taking out the pet just deposited (it sits at the last position) restores the holding. */
  lemma DepositThenWithdraw(h: Holding, slots: nat)
    requires CanHandOver(h) && |h.shelter| < slots
    ensures Deposit(h, slots).Done?
    ensures Switch(Deposit(h, slots).holding, |h.shelter| + 1).holding == h
  {
    var d := Deposit(h, slots).holding;
    assert d.shelter == h.shelter + [h.playerPet.value];
    assert d.shelter[..|h.shelter|] + d.shelter[|h.shelter|+1..] == h.shelter;
  }

  /** Switching twice at the same position, with two pets that can be handed over, restores the holding. */
  lemma SwitchTwiceRestores(h: Holding, position: int)
    requires 1 <= position <= |h.shelter|
    requires CanHandOver(h) && !h.shelter[position - 1].feisty
    ensures Switch(h, position).Done?
    ensures Switch(Switch(h, position).holding, position) == Done(h, TransferRecord(Some(h.shelter[position - 1]), h.playerPet))
  {
    var once := Switch(h, position).holding;
    assert once.shelter == h.shelter[position - 1 := h.playerPet.value];
    assert once.shelter[position - 1 := h.shelter[position - 1]] == h.shelter;
  }

  /** Any sequence of commands keeps the pets and the shelter capacity bound. */
  lemma {:induction false} CommandsConserve(h: Holding, slots: nat, commands: seq<(bool, bool, Option<int>)>)
    requires WithinCapacity(h, slots)
    requires forall k :: 0 <= k < |commands| ==> (commands[k].2.Some? ==> commands[k].2.value >= 1)
    ensures Pets(RunCommands(h, slots, commands)) == Pets(h)
    ensures WithinCapacity(RunCommands(h, slots, commands), slots)
    decreases |commands|
  {
    if |commands| > 0 {
      var c := commands[0];
      CommandsConserve(ExecuteCommand(c.0, c.1, c.2, h, slots).holding, slots, commands[1..]);
    }
  }

  /** The holding after running commands one after another, each on the previous one's holding. */
  function RunCommands(h: Holding, slots: nat, commands: seq<(bool, bool, Option<int>)>): Holding
    requires forall k :: 0 <= k < |commands| ==> (commands[k].2.Some? ==> commands[k].2.value >= 1)
    decreases |commands|
  {
    if |commands| == 0 then h
    else
      var c := commands[0];
      RunCommands(ExecuteCommand(c.0, c.1, c.2, h, slots).holding, slots, commands[1..])
  }
}

=== FILE: wrappers.dfy ===
/** Optional values: the model's stand-in for JavaScript's `null`/`undefined`. */
module Wrappers {

  datatype Option<+T> = None | Some(value: T) {

    /** The value held, or `default` when there is none. */
    function GetOr(default: T): T {
      match this
      case Some(v) => v
      case None => default
    }
  }

  /** The values held by an optional value, as a multiset (empty or a singleton). */
  function ToMultiset<T>(o: Option<T>): (m: multiset<T>)
    ensures |m| == if o.Some? then 1 else 0
    ensures o.Some? ==> o.value in m
  {
    match o
    case None => multiset{}
    case Some(v) => multiset{v}
  }
}
